=== FILE: README.md ===
# Kisan Mitra client core, modelled in Dafny

Kisan Mitra is an Android marketplace connecting farmers, buyers, truck
drivers and traders. This project models the parts of the client that hold
state and decide things. Screen layout is not modelled. The model is written
as immutable datatypes with pure transition functions, and it proves what
those functions promise.

- **Session store** (`UserDao`, `AuthRepository`, `AuthViewModel`,
  `UserPreferences`, `MainViewModel`).
  - The Room `users` table is a sequence of rows keyed by `id`.
  - The five auth operations run over that table. The OTP check accepts only
    "123456"; the PIN check accepts any PIN.
  - `authState` moves from null to `Loading` to `Success` or `Error`.
  - The language and role preferences have defaults and read back what was
    saved.
  - The invariant: whatever sequence of calls runs, at most one row is logged
    in.
- **Navigation** (`Screens`, `NavGraph`).
  - Route templates and the `createRoute` builders.
  - The start-destination decision and the dashboard reached after login.
  - The `role` and `listingId` route arguments with their defaults.
- **Market store** (`FakeMarketRepository`).
  - The seeded listings and trips. Listings are append-only.
  - Trip status is replaced by id.
  - The fixed price advice and the fixed order lists.
  - A lemma covering any run of writes.
- **View-models and derived views** (`FarmerViewModel`, `BuyerViewModel`,
  `DriverViewModel`, `DriverDashboard`, `ListingDetailScreen`,
  `TraderDashboardScreen`, `CreateListingScreen`, `OrderTimeline`).
  - The records the commands build: posted listings and placed orders.
  - Each view-model's initial states: the `Initial` constants.
  - The available-trip filter, the lookup of a listing by id, and the reversed
    Selling list.
  - The accept dialog and the price-edit dialog.
  - The form gating of the create-listing screen.
  - The order-tracking timeline flags.
- **Auth forms** (`AuthScreens`).
  - Input caps and the enable predicates of the buttons.
  - Success callbacks and error text.
  - The 60-second OTP resend countdown.
- **Speech** (`TtsManager`).
  - The language-to-locale choice and the fallback to US.
  - The one-slot buffer for requests made before the engine is ready.
  - Spoken advice and prompts chosen by language.

Kotlin's `Result` is `KResult` (`Ok` | `Failure(message?)`). Nullable values
are `Option`. A `valueOf` that throws is `None`. The screens' `UiState` is
`Loading | Success(data) | Error(message)`, taken from how it is used;
`ui/state/UiState.kt` is not part of this model. `Double` is `real`.

Some inputs are parameters:

- Number parsing is `parse: string -> Option<real>`.
- Number rendering is `show: real -> string`.
- Engine language support is `supported: Locale -> bool`.
- UUIDs and clock values are `freshId`, `id` and `now`.

Each suspend call is one atomic step.

Where the documented behaviour and the code disagree, the model follows the
code:

- `login` writes nothing to the table. It only fabricates a logged-in user.
  So after a successful login the session query still returns the previous
  row (`AuthRepository.Login`, `AuthViewModel.SuccessLogsIn`).
- The trip store does not check the current status. A trip can be accepted
  twice, moved back to AVAILABLE, or completed without being accepted. No
  first-accepter-wins rule exists (`FakeMarketRepository.NoStatusGuard`,
  `DriverViewModel.CommandsIgnoreCurrentStatus`).
- Price advice is a constant "SELL NOW", not computed from the crop or the
  quantity (`FakeMarketRepository.AdviceIgnoresInputs`).
- `speak` defaults to QUEUE_ADD, although its doc comment names QUEUE_FLUSH
  (`TtsManager.Speak`).
- The spoken advice and prompts use Kannada text only for "kn" and "Kannada".
  The speech engine also picks the Kannada locale for "kn-IN", so "kn-IN"
  gets English text spoken in the Kannada locale
  (`FarmerViewModel.ScriptAgreesWithLocale`).
- `getVegImage` lower-cases but does not trim. `Listing.displayImage` does
  both, so " tomato" differs between them
  (`CreateListingScreen.PaddedNameDiffers`).
- The order-tracking screen fixes the status at TRANSPORT_BOOKED, so its Book
  Transport button never appears (`OrderTimeline.BookTransportWhen`).
- `register` and `verifyPin` pass a `pin` to the `User` constructor, but
  `User` declares no such field. The model keeps `User` as declared, and
  `pin` is an argument that is never stored.

## Model

Source paths are relative to the repository root.

| member | source | states |
|---|---|---|
| Common.Settle | app/src/main/java/com/riku/kisanmitra/ui/screens/auth/AuthViewModel.kt:27-28 | A settled call is never published as `Loading`. It is `Success` exactly when the Result succeeded, and then carries its value; otherwise it is `Error` with the failure's message or, when that is null, the fallback text |
| Common.Lower | app/src/main/java/com/riku/kisanmitra/domain/model/Models.kt:31 | `lowercase` keeps the length and lower-cases each character on its own |
| Common.TrimStart | app/src/main/java/com/riku/kisanmitra/domain/model/Models.kt:31 | The result is a suffix of the input that does not start with whitespace, and every character dropped is whitespace |
| Common.TrimEnd | app/src/main/java/com/riku/kisanmitra/domain/model/Models.kt:31 | The result is a prefix of the input that does not end with whitespace, and every character dropped is whitespace |
| Common.TrimLowerCommute | app/src/main/java/com/riku/kisanmitra/domain/model/Models.kt:31 | `lowercase().trim()` and `trim().lowercase()` give the same key for every string |
| Common.TrimUnpadded | app/src/main/java/com/riku/kisanmitra/domain/model/Models.kt:31 | A string with no whitespace at either end is unchanged by `trim` |
| Common.NormalisesTo | app/src/main/java/com/riku/kisanmitra/ui/screens/farmer/FarmerViewModel.kt:93 | A crop name whose lower-cased letters spell an unpadded key normalises to exactly that key |
| Common.LowerIdempotent | app/src/main/java/com/riku/kisanmitra/ui/screens/farmer/CreateListingScreen.kt:293 | Lower-casing twice is lower-casing once, so the lookups are insensitive to case |
| Common.ReplaceChar | app/src/main/java/com/riku/kisanmitra/ui/screens/farmer/FarmerOrderStatusScreen.kt:54 | `replace` keeps the length, and at each position substitutes the replacement exactly where the original had the replaced character |
| Models.ParseRole | app/src/main/java/com/riku/kisanmitra/navigation/NavGraph.kt:63 | `UserRole.valueOf` returns a role only for that role's own name, and throws exactly when no role has the given name |
| Models.RoleNameRoundTrip | app/src/main/java/com/riku/kisanmitra/domain/model/Models.kt:7-9 | Every role's `name` parses back to the same role |
| Models.RolesEnumerated | app/src/main/java/com/riku/kisanmitra/domain/model/Models.kt:7-9 | `UserRole` has exactly five distinct values, FARMER, BUYER, DRIVER, TRADER and NONE, and every role is one of them |
| Models.Ordinal | app/src/main/java/com/riku/kisanmitra/domain/model/Models.kt:59-61 | A status's ordinal is its index in `values()` |
| Models.OrdinalsIndexValues | app/src/main/java/com/riku/kisanmitra/domain/model/Models.kt:59-61 | There are five order statuses, each index's status has that index as its ordinal, and LISTED < ORDER_RECEIVED < TRANSPORT_BOOKED < PICKED_UP < DELIVERED |
| Models.ParseTripStatus | app/src/main/java/com/riku/kisanmitra/data/repository/FakeMarketRepository.kt:94 | `TripStatus.valueOf` returns a status only for that status's name, and throws exactly when no status has the name |
| Models.StatusesEnumerated | app/src/main/java/com/riku/kisanmitra/domain/model/Models.kt:44-85 | There are four trip statuses and three listing statuses; every value is one of them, and each trip status round-trips through its name |
| Models.NewListing | app/src/main/java/com/riku/kisanmitra/domain/model/Models.kt:19-29 | A listing built without the two defaulted arguments is ACTIVE with trust score 4.5, and carries every given field |
| Models.NewUser | app/src/main/java/com/riku/kisanmitra/domain/model/User.kt:7-14 | A user built without the defaulted arguments has an empty location and is not logged in |
| Models.CropDrawable | app/src/main/java/com/riku/kisanmitra/domain/model/Models.kt:31-41 | The crop lookup returns a picture other than the logo exactly for the eight crop names, and that picture illustrates the given name; for any other key no picture matches |
| Models.CropDrawableRoundTrip | app/src/main/java/com/riku/kisanmitra/domain/model/Models.kt:32-39 | Every crop picture is found again from the crop name it illustrates |
| Models.DisplayImage | app/src/main/java/com/riku/kisanmitra/domain/model/Models.kt:30-41 | With images, the first image is shown. Without images, a bundled picture is shown: the picture of the trimmed, lower-cased crop name when that is one of the eight names, and the logo exactly when it is not |
| UserDao.ConsUnique | app/src/main/java/com/riku/kisanmitra/domain/model/User.kt:8 | A row can be added to a keyed table, keeping keys unique, exactly when no row already has its id |
| UserDao.WithoutId | app/src/main/java/com/riku/kisanmitra/data/local/UserDao.kt:12 | Deleting by key keeps exactly the rows whose id differs |
| UserDao.WithoutIdFacts | app/src/main/java/com/riku/kisanmitra/data/local/UserDao.kt:12 | Deleting an absent key changes nothing; in a keyed table, deleting a key keeps keys unique and removes exactly one row when the key is present |
| UserDao.InsertUser | app/src/main/java/com/riku/kisanmitra/data/local/UserDao.kt:12-13 | REPLACE insert: the new row ends up in the table, and any earlier row with its id is gone. Every other row stays. A new id makes the table grow by one; an existing id keeps its size. Keys stay unique |
| UserDao.LogoutAll | app/src/main/java/com/riku/kisanmitra/data/local/UserDao.kt:18-19 | `logoutAll` keeps every row in place, changing only its logged-in flag, which it clears |
| UserDao.LogoutAllClears | app/src/main/java/com/riku/kisanmitra/data/local/UserDao.kt:18-19 | After `logoutAll` no row is logged in, the ids are unchanged, and a keyed table satisfies the session invariant |
| UserDao.LogoutAllIdempotent | app/src/main/java/com/riku/kisanmitra/data/local/UserDao.kt:18-19 | Running `logoutAll` twice has the same effect as running it once |
| UserDao.LoggedInUser | app/src/main/java/com/riku/kisanmitra/data/local/UserDao.kt:15-16 | The query returns null exactly when no row is logged in; otherwise it returns the first logged-in row in table order (LIMIT 1) |
| UserDao.LoggedInUserExact | app/src/main/java/com/riku/kisanmitra/data/local/UserDao.kt:15-16 | When at most one row is logged in, the query returns a user if and only if that user is a logged-in row of the table |
| AuthRepository.Promote | app/src/main/java/com/riku/kisanmitra/data/repository/AuthRepositoryImpl.kt:44-45 | `logoutAll` then `insertUser` leaves the new user as the only logged-in row, and the session query returns it. Every other row is an earlier row with its flag cleared, and every earlier row with another id survives that way |
| AuthRepository.Login | app/src/main/java/com/riku/kisanmitra/data/repository/AuthRepositoryImpl.kt:20-32 | `login` always succeeds with a logged-in "Demo User" carrying the given phone and role, and leaves the table untouched |
| AuthRepository.Register | app/src/main/java/com/riku/kisanmitra/data/repository/AuthRepositoryImpl.kt:34-47 | `register` succeeds with the new user, which becomes the only logged-in row; a keyed table stays valid |
| AuthRepository.VerifyOtp | app/src/main/java/com/riku/kisanmitra/data/repository/AuthRepositoryImpl.kt:49-65 | Verification succeeds if and only if the code is "123456", and then logs in a FARMER "Verified User" as the only logged-in row. Any other code fails with "Invalid OTP" and leaves the table unchanged |
| AuthRepository.VerifyPin | app/src/main/java/com/riku/kisanmitra/data/repository/AuthRepositoryImpl.kt:67-82 | PIN verification always succeeds, logging in a FARMER "PIN Verified User" as the only logged-in row |
| AuthRepository.VerifyPinIgnoresPin | app/src/main/java/com/riku/kisanmitra/data/repository/AuthRepositoryImpl.kt:67-82 | Two different PINs give identical outcomes: no comparison is made |
| AuthRepository.VerificationMakesFarmer | app/src/main/java/com/riku/kisanmitra/data/repository/AuthRepositoryImpl.kt:49-82 | Successful OTP or PIN verification always yields a FARMER, whatever role was chosen before |
| AuthRepository.Logout | app/src/main/java/com/riku/kisanmitra/data/repository/AuthRepositoryImpl.kt:84-86 | `logout` deletes no row and keeps every id, and afterwards no row is logged in |
| AuthRepository.GetLoggedInUser | app/src/main/java/com/riku/kisanmitra/data/repository/AuthRepositoryImpl.kt:18 | The session read returns a logged-in row of the table, or null exactly when none is logged in |
| AuthRepository.ApplyKeepsValid | app/src/main/java/com/riku/kisanmitra/data/repository/AuthRepositoryImpl.kt:20-86 | Each of the five operations keeps ids unique and at most one row logged in |
| AuthRepository.RunKeepsValid | app/src/main/java/com/riku/kisanmitra/data/repository/AuthRepositoryImpl.kt:20-86 | After any sequence of the five operations, at most one row is logged in |
| AuthViewModel.Init | app/src/main/java/com/riku/kisanmitra/ui/screens/auth/AuthViewModel.kt:20 | `authState` starts as null |
| AuthViewModel.Publish | app/src/main/java/com/riku/kisanmitra/ui/screens/auth/AuthViewModel.kt:23-57 | A command publishes `Loading` and then exactly one terminal state. It is `Success(user)` exactly when the call succeeded; otherwise it is `Error` with the message or the command's fallback |
| AuthViewModel.Dispatch | app/src/main/java/com/riku/kisanmitra/ui/screens/auth/AuthViewModel.kt:23-57 | After a command the published trace is `Loading` followed by the settled repository result: the returned user on success, else the failure message or the command's fallback. The state is that terminal state, `Success` exactly when the call succeeded, and the table is the one the repository call left |
| AuthViewModel.DispatchOutcomes | app/src/main/java/com/riku/kisanmitra/ui/screens/auth/AuthViewModel.kt:23-57 | Against the repository as written, login, register and PIN verification end in `Success`. OTP verification ends in `Error("Invalid OTP")` for any code but the sentinel, with the table unchanged |
| AuthViewModel.SuccessLogsIn | app/src/main/java/com/riku/kisanmitra/ui/screens/auth/AuthViewModel.kt:32-57 | A successful register, OTP or PIN command leaves the published user as the session's logged-in row |
| AuthViewModel.Logout | app/src/main/java/com/riku/kisanmitra/ui/screens/auth/AuthViewModel.kt:59-64 | Logout resets `authState` to null and leaves nobody logged in. It deletes no row: every row keeps its position and id |
| UserPreferences.Language | app/src/main/java/com/riku/kisanmitra/data/pref/UserPreferences.kt:20 | The language read is the saved value, or "English" when none is saved |
| UserPreferences.Role | app/src/main/java/com/riku/kisanmitra/data/pref/UserPreferences.kt:21-24 | An unset role reads as NONE. A saved role string reads successfully if and only if it is some role's name, and then yields that role |
| UserPreferences.SaveLanguage | app/src/main/java/com/riku/kisanmitra/data/pref/UserPreferences.kt:26-28 | Saving the language adds only the language key and changes no other entry |
| UserPreferences.SaveRole | app/src/main/java/com/riku/kisanmitra/data/pref/UserPreferences.kt:30-32 | Saving the role adds only the role key and changes no other entry |
| UserPreferences.SaveRoleReadBack | app/src/main/java/com/riku/kisanmitra/data/pref/UserPreferences.kt:21-32 | A saved role reads back as itself, and the language read is unaffected |
| UserPreferences.SaveLanguageReadBack | app/src/main/java/com/riku/kisanmitra/data/pref/UserPreferences.kt:20-28 | A saved language reads back as itself, and the role read is unaffected |
| UserPreferences.Defaults | app/src/main/java/com/riku/kisanmitra/data/pref/UserPreferences.kt:20-24 | An empty store reads as "English" and NONE |
| UserPreferences.UnknownRoleNameFails | app/src/main/java/com/riku/kisanmitra/data/pref/UserPreferences.kt:23 | A stored role string that is none of the five names makes the read throw |
| MainViewModel.Observe | app/src/main/java/com/riku/kisanmitra/ui/MainViewModel.kt:22-29 | The three observed values are the stored language, the stored role and the session's logged-in user. The role flow fails exactly when the stored role does not parse |
| MainViewModel.InitialMatchesFreshInstall | app/src/main/java/com/riku/kisanmitra/ui/MainViewModel.kt:22-29 | The initial values ("English", NONE, no user) are exactly what an empty store and table emit |
| MainViewModel.SelectLanguage | app/src/main/java/com/riku/kisanmitra/ui/MainViewModel.kt:31-35 | Selecting a language persists exactly it and leaves the role and the session alone |
| MainViewModel.SelectRole | app/src/main/java/com/riku/kisanmitra/ui/MainViewModel.kt:37-41 | Selecting a role persists exactly it and leaves the language and the session alone |
| MainViewModel.Logout | app/src/main/java/com/riku/kisanmitra/ui/MainViewModel.kt:43-48 | After logout nobody is logged in, the role reads NONE and the language is unchanged. No row is deleted: every row keeps its position and id |
| Screens.MatchArg | app/src/main/java/com/riku/kisanmitra/navigation/NavGraph.kt:58-63 | A path matches a route template only when that template has an argument, and the path is the template's prefix followed by the extracted value |
| Screens.LoginRoute | app/src/main/java/com/riku/kisanmitra/navigation/Screen.kt:6-8 | `Login.createRoute(r)` is the template with `{role}` replaced by `r`, and it matches back to `r` when `r` can be a path segment |
| Screens.RegisterRoute | app/src/main/java/com/riku/kisanmitra/navigation/Screen.kt:9-11 | `Register.createRoute(r)` is the template with `{role}` replaced by `r`, and it matches back to `r` when `r` can be a path segment (non-empty, without '/') |
| Screens.ListingDetailRoute | app/src/main/java/com/riku/kisanmitra/navigation/Screen.kt:23-25 | `ListingDetail.createRoute(id)` is the template with `{listingId}` replaced by `id`, and it matches back to `id` when `id` can be a path segment (non-empty, without '/') |
| Screens.RouteRoundTrip | app/src/main/java/com/riku/kisanmitra/navigation/Screen.kt:3-34 | Every route string leads back to the screen that declares it |
| Screens.RoutesDistinct | app/src/main/java/com/riku/kisanmitra/navigation/Screen.kt:3-34 | No two screens share a route template |
| NavGraph.RoleDashboardInjective | app/src/main/java/com/riku/kisanmitra/navigation/NavGraph.kt:29-32 | The four role dashboards are pairwise distinct |
| NavGraph.StartDestination | app/src/main/java/com/riku/kisanmitra/navigation/NavGraph.kt:27-34 | With no logged-in user the graph starts at LanguageSelection whatever the role. With a user, it starts at the dashboard of the preference role, or at LanguageSelection for NONE |
| NavGraph.StartIgnoresStoredRole | app/src/main/java/com/riku/kisanmitra/navigation/NavGraph.kt:27-34 | Which user is logged in, including that user's own role, does not affect the start |
| NavGraph.StartBeforeFirstEmission | app/src/main/java/com/riku/kisanmitra/navigation/NavGraph.kt:24-34 | Before the first emission the graph starts at LanguageSelection |
| NavGraph.StartAfterLogout | app/src/main/java/com/riku/kisanmitra/navigation/NavGraph.kt:27-34 | After the main logout, the next start is LanguageSelection |
| NavGraph.AfterAuthDestination | app/src/main/java/com/riku/kisanmitra/navigation/NavGraph.kt:67-73 | After login or register success, the target is the dashboard of the route's role, and BuyerDashboard for NONE |
| NavGraph.StartAgreesWithAfterAuth | app/src/main/java/com/riku/kisanmitra/navigation/NavGraph.kt:94-100 | For a real role, restarting with a logged-in user lands where the success navigation went |
| NavGraph.RoleArgument | app/src/main/java/com/riku/kisanmitra/navigation/NavGraph.kt:62-63 | A missing role argument means BUYER. A present one yields the role with that name, and throws exactly when no role has it |
| NavGraph.OnLanguageSelected | app/src/main/java/com/riku/kisanmitra/navigation/NavGraph.kt:42-44 | Choosing a language persists it and moves to RoleSelection |
| NavGraph.OnRoleSelected | app/src/main/java/com/riku/kisanmitra/navigation/NavGraph.kt:51-54 | Choosing a role persists it and moves to `login/<ROLE>` |
| NavGraph.RoleSelectionReachesDashboard | app/src/main/java/com/riku/kisanmitra/navigation/NavGraph.kt:51-73 | The login route built for a chosen role parses back to that role, so a successful login lands on that role's dashboard |
| NavGraph.AuthFormsKeepRole | app/src/main/java/com/riku/kisanmitra/navigation/NavGraph.kt:78-109 | Moving between the login and register forms passes the raw role argument along unchanged |
| NavGraph.ListingIdArgument | app/src/main/java/com/riku/kisanmitra/navigation/NavGraph.kt:142 | A missing `listingId` argument means ""; a present one is passed as is |
| NavGraph.ListingDetailArgument | app/src/main/java/com/riku/kisanmitra/navigation/NavGraph.kt:138-143 | A path that matches the detail template hands the destination exactly the id after `listing_detail/`; a path that does not match gives the empty id |
| FakeMarketRepository.Seed | app/src/main/java/com/riku/kisanmitra/data/repository/FakeMarketRepository.kt:16-32 | The store starts with 3 ACTIVE listings of one photo each and 5 AVAILABLE trips with distinct ids |
| FakeMarketRepository.CreateListing | app/src/main/java/com/riku/kisanmitra/data/repository/FakeMarketRepository.kt:47-51 | `createListing` succeeds, appends the listing at the end, keeps earlier listings in order and leaves the trips alone |
| FakeMarketRepository.PlaceOrder | app/src/main/java/com/riku/kisanmitra/data/repository/FakeMarketRepository.kt:84-87 | `placeOrder` succeeds and changes no store |
| FakeMarketRepository.SetTripStatus | app/src/main/java/com/riku/kisanmitra/data/repository/FakeMarketRepository.kt:93-95 | Trips with the id get the new status and keep every other field. Every other trip is unchanged, and the length and order are kept |
| FakeMarketRepository.UpdateTripStatus | app/src/main/java/com/riku/kisanmitra/data/repository/FakeMarketRepository.kt:91-97 | The update throws if and only if some trip has the id and the status name is not a status's name. Otherwise the listings are untouched, the trip list keeps its length, other trips are unchanged, and matching trips carry the named status |
| FakeMarketRepository.UnknownTripUnchanged | app/src/main/java/com/riku/kisanmitra/data/repository/FakeMarketRepository.kt:93-95 | An id no trip has leaves the stores unchanged whatever the status name, because the name is parsed only for matching trips |
| FakeMarketRepository.UpdateTripStatusIdempotent | app/src/main/java/com/riku/kisanmitra/data/repository/FakeMarketRepository.kt:91-97 | Setting the same status a second time changes nothing |
| FakeMarketRepository.NoStatusGuard | app/src/main/java/com/riku/kisanmitra/data/repository/FakeMarketRepository.kt:94 | The current status is never checked: an accepted trip can be accepted again and moved back to AVAILABLE |
| FakeMarketRepository.TripIds | app/src/main/java/com/riku/kisanmitra/data/repository/FakeMarketRepository.kt:24-32 | The id sequence lists the trips' ids in store order |
| FakeMarketRepository.RunInvariant | app/src/main/java/com/riku/kisanmitra/data/repository/FakeMarketRepository.kt:47-97 | Over any run of writes that does not throw, the listings grow by exactly the created ones, in order, and the trip list keeps its ids and order |
| FakeMarketRepository.GetAiPriceAdvice | app/src/main/java/com/riku/kisanmitra/data/repository/FakeMarketRepository.kt:53-65 | The advice always succeeds with "SELL NOW". The price is predicted to rise within 24 h and then fall below today's within 48 h, with confidence between 0 and 1 |
| FakeMarketRepository.AdviceIgnoresInputs | app/src/main/java/com/riku/kisanmitra/data/repository/FakeMarketRepository.kt:53-65 | The advice is the same whatever the crop or the quantity |
| FakeMarketRepository.OrdersForFarmer | app/src/main/java/com/riku/kisanmitra/data/repository/FakeMarketRepository.kt:67-74 | A farmer sees two orders, ORDER_RECEIVED and PICKED_UP, with positive totals |
| FakeMarketRepository.OrdersForFarmerIgnoresId | app/src/main/java/com/riku/kisanmitra/data/repository/FakeMarketRepository.kt:67-74 | Every farmer id gets the same orders |
| FakeMarketRepository.OrdersForBuyer | app/src/main/java/com/riku/kisanmitra/data/repository/FakeMarketRepository.kt:76-82 | A buyer sees one ORDER_RECEIVED order for listing "1", carrying the buyer's own id |
| FakeMarketRepository.OrdersForBuyerRelabel | app/src/main/java/com/riku/kisanmitra/data/repository/FakeMarketRepository.kt:76-82 | Two buyers see the same order, differing only in the buyer id |
| TtsManager.LocaleFor | app/src/main/java/com/riku/kisanmitra/util/TtsManager.kt:71-75 | The kn-IN locale is requested if and only if the language is "kn", "kn-IN" or "Kannada"; otherwise US |
| TtsManager.EffectiveLocale | app/src/main/java/com/riku/kisanmitra/util/TtsManager.kt:77-81 | Speech is in Kannada exactly when Kannada was requested and the engine supports it; otherwise it falls back to US |
| TtsManager.SpeakWith | app/src/main/java/com/riku/kisanmitra/util/TtsManager.kt:64-85 | Before init, the request replaces the pending slot and nothing is spoken. After init, exactly one utterance is appended: the text, in the locale chosen for the language (US when the engine does not support it), in the given mode; the slot is untouched |
| TtsManager.Speak | app/src/main/java/com/riku/kisanmitra/util/TtsManager.kt:64 | Without a mode argument, speech is queued with QUEUE_ADD |
| TtsManager.OnInit | app/src/main/java/com/riku/kisanmitra/util/TtsManager.kt:30-42 | A failed init changes nothing. A successful one marks the manager ready, clears the slot, and speaks the pending request, if any, exactly once |
| TtsManager.Stop | app/src/main/java/com/riku/kisanmitra/util/TtsManager.kt:87-89 | `stop` records one stop and changes neither readiness nor the slot |
| TtsManager.PendingKeepsLatest | app/src/main/java/com/riku/kisanmitra/util/TtsManager.kt:65-69 | Before init, only the last of several requests stays in the slot, and nothing is spoken |
| TtsManager.EarlyRequestsSpokenOnce | app/src/main/java/com/riku/kisanmitra/util/TtsManager.kt:30-37 | Of all requests made before a successful init, exactly the last is spoken, once |
| TtsManager.FailedInitKeepsBuffering | app/src/main/java/com/riku/kisanmitra/util/TtsManager.kt:38-40 | After a failed init, a request still only fills the slot |
| FarmerViewModel.OnListings | app/src/main/java/com/riku/kisanmitra/ui/screens/farmer/FarmerViewModel.kt:39 | A listings emission becomes `Success` of that list, leaving the other states alone |
| FarmerViewModel.OnOrders | app/src/main/java/com/riku/kisanmitra/ui/screens/farmer/FarmerViewModel.kt:42 | An orders emission becomes `Success` of that list, leaving the other states alone |
| FarmerViewModel.Loaded | app/src/main/java/com/riku/kisanmitra/ui/screens/farmer/FarmerViewModel.kt:37-44 | After loading, the listings state is the store's listings, and the orders state is `Success` of exactly the orders the store returns for farmer "f1" (two of them) |
| FarmerViewModel.ScriptFor | app/src/main/java/com/riku/kisanmitra/ui/screens/farmer/FarmerViewModel.kt:61 | Kannada text is chosen if and only if the language is "kn" or "Kannada" |
| FarmerViewModel.ScriptAgreesWithLocale | app/src/main/java/com/riku/kisanmitra/ui/screens/farmer/FarmerViewModel.kt:79 | Kannada text is always spoken with the Kannada locale requested, but "kn-IN" gets English text in the Kannada locale |
| FarmerViewModel.AdviceText | app/src/main/java/com/riku/kisanmitra/ui/screens/farmer/FarmerViewModel.kt:61-71 | The spoken advice ends with the advice's reason text; the English text opens with the insight sentence |
| FarmerViewModel.SpeakAdvice | app/src/main/java/com/riku/kisanmitra/ui/screens/farmer/FarmerViewModel.kt:58-74 | Once the engine is ready, speaking advice appends exactly one utterance: the advice text in the language's script, in the effective locale for that language, queued with QUEUE_ADD. Before that it parks the same text, with the language, in the slot |
| FarmerViewModel.AdviceSpokenAfterInit | app/src/main/java/com/riku/kisanmitra/util/TtsManager.kt:30-37 | Advice requested before the engine is ready is spoken once a successful init arrives. The utterance is the same, in words and locale, as if the engine had been ready when advice was requested |
| FarmerViewModel.SpeakPrompt | app/src/main/java/com/riku/kisanmitra/ui/screens/farmer/FarmerViewModel.kt:76-82 | A ready engine speaks the Kannada prompt for a Kannada script and the English one otherwise, in the effective locale; before init nothing is spoken |
| FarmerViewModel.GetPriceAdvice | app/src/main/java/com/riku/kisanmitra/ui/screens/farmer/FarmerViewModel.kt:46-56 | Advice goes `Loading`, then `Success(advice)` followed by speaking that advice, or `Error` with the message or "Error" and nothing spoken. The list states are untouched |
| FarmerViewModel.PriceAdviceFromRepository | app/src/main/java/com/riku/kisanmitra/ui/screens/farmer/FarmerViewModel.kt:46-56 | Against the store as written, advice always ends in `Success` with "SELL NOW", and that advice is spoken |
| FarmerViewModel.DefaultImages | app/src/main/java/com/riku/kisanmitra/ui/screens/farmer/FarmerViewModel.kt:92-98 | A crop gets a default photo if and only if its trimmed, lower-cased name is onion, potato or tomato, and then exactly one photo: the onion, potato or tomato photo respectively |
| FarmerViewModel.SameKeySeedPhoto | app/src/main/java/com/riku/kisanmitra/ui/screens/farmer/FarmerViewModel.kt:92-98 | Any spelling whose trimmed, lower-cased form is tomato, onion or potato (such as the menu's lower-case names) gets exactly the photo of the seeded listing of that crop |
| FarmerViewModel.DefaultImagesMatchSeeds | app/src/main/java/com/riku/kisanmitra/ui/screens/farmer/FarmerViewModel.kt:94-96 | The three seeded listings, named "Tomato", "Onion" and "Potato", each get their own photo as default; other spellings are covered by `SameKeySeedPhoto` |
| FarmerViewModel.FinalImages | app/src/main/java/com/riku/kisanmitra/ui/screens/farmer/FarmerViewModel.kt:92-101 | Supplied images are kept unchanged; with none supplied, the crop's default applies |
| FarmerViewModel.PostedListing | app/src/main/java/com/riku/kisanmitra/ui/screens/farmer/FarmerViewModel.kt:103-111 | The posted listing belongs to "f1", with the given crop, quantity and price, ACTIVE status, trust 4.5 and the final images |
| FarmerViewModel.PostedListingImage | app/src/main/java/com/riku/kisanmitra/ui/screens/farmer/FarmerViewModel.kt:92-111 | A listing posted without images shows its default photo for onion, potato or tomato, and its crop picture otherwise |
| FarmerViewModel.PostListing | app/src/main/java/com/riku/kisanmitra/ui/screens/farmer/FarmerViewModel.kt:84-115 | Posting writes the listing at the end of the store, keeping earlier listings and the trips. Only after that write does `onListingPosted` run |
| BuyerViewModel.Loaded | app/src/main/java/com/riku/kisanmitra/ui/screens/buyer/BuyerViewModel.kt:31-40 | After loading, live prices and listings are the store's, and the orders state is `Success` of exactly the orders the store returns for buyer "b1" (one of them) |
| BuyerViewModel.MakeOrder | app/src/main/java/com/riku/kisanmitra/ui/screens/buyer/BuyerViewModel.kt:43-55 | The order names the listing and buyer "b1", has no driver and status ORDER_RECEIVED, and totals quantity × price per kg |
| BuyerViewModel.OrderUnitPrice | app/src/main/java/com/riku/kisanmitra/ui/screens/buyer/BuyerViewModel.kt:52 | For a non-zero quantity, the order's total divided by the quantity is the listing's price per kg |
| BuyerViewModel.PlaceOrder | app/src/main/java/com/riku/kisanmitra/ui/screens/buyer/BuyerViewModel.kt:43-55 | Placing an order leaves the store unchanged |
| BuyerViewModel.UpdateListingPrice | app/src/main/java/com/riku/kisanmitra/ui/screens/buyer/BuyerViewModel.kt:58-62 | The price update forwards the id and the price unchanged |
| DriverViewModel.OnTrips | app/src/main/java/com/riku/kisanmitra/ui/screens/driver/DriverViewModel.kt:31-37 | A trips emission becomes `Success` of that list and leaves the online flag alone |
| DriverViewModel.ToggleOnline | app/src/main/java/com/riku/kisanmitra/ui/screens/driver/DriverViewModel.kt:39-41 | Toggling flips the online flag and nothing else |
| DriverViewModel.ToggleTwice | app/src/main/java/com/riku/kisanmitra/ui/screens/driver/DriverViewModel.kt:39-41 | Toggling twice restores the state |
| DriverViewModel.AcceptTrip | app/src/main/java/com/riku/kisanmitra/ui/screens/driver/DriverViewModel.kt:43-47 | Accepting is the store update to "ACCEPTED", which never throws, and marks the trip ACCEPTED |
| DriverViewModel.CompleteTrip | app/src/main/java/com/riku/kisanmitra/ui/screens/driver/DriverViewModel.kt:49-53 | Completing is the store update to "DELIVERED", which never throws, and marks the trip DELIVERED |
| DriverViewModel.CommandsIgnoreCurrentStatus | app/src/main/java/com/riku/kisanmitra/ui/screens/driver/DriverViewModel.kt:43-53 | A trip can be completed without being accepted, and accepted after delivery |
| DriverDashboard.AvailableTrips | app/src/main/java/com/riku/kisanmitra/ui/screens/driver/DriverDashboardScreen.kt:99 | The filter keeps exactly the AVAILABLE trips |
| DriverDashboard.AvailableTripsAppend | app/src/main/java/com/riku/kisanmitra/ui/screens/driver/DriverDashboardScreen.kt:99 | Filtering distributes over concatenation, so kept trips stay in store order |
| DriverDashboard.AvailableTripsKeepsAll | app/src/main/java/com/riku/kisanmitra/ui/screens/driver/DriverDashboardScreen.kt:99 | A list of AVAILABLE trips passes the filter unchanged |
| DriverDashboard.Area | app/src/main/java/com/riku/kisanmitra/ui/screens/driver/DriverDashboardScreen.kt:89-119 | Offline shows only the go-online prompt. Online, the spinner shows exactly while loading and the error text exactly on an error. Once loaded, the trip list shows exactly when some trip is AVAILABLE, and then holds exactly the AVAILABLE trips in store order; otherwise "no trips" shows |
| DriverDashboard.AreaShowsAvailable | app/src/main/java/com/riku/kisanmitra/ui/screens/driver/DriverDashboardScreen.kt:93-116 | Online with the trips loaded, a trip is on screen if and only if it is in the store and AVAILABLE |
| DriverDashboard.SeededTripsListed | app/src/main/java/com/riku/kisanmitra/ui/screens/driver/DriverDashboardScreen.kt:89-119 | Online, with the seeded store, all five trips are listed |
| DriverDashboard.AcceptedTripDropsOut | app/src/main/java/com/riku/kisanmitra/ui/screens/driver/DriverDashboardScreen.kt:99 | After an accept, a trip is offered if and only if it was offered before and has a different id |
| DriverDashboard.OnDialog | app/src/main/java/com/riku/kisanmitra/ui/screens/driver/DriverDashboardScreen.kt:124-141 | A card's Accept opens the dialog for that trip. Confirming accepts it, closes the dialog and opens ActiveTrip. Dismissing or cancelling closes it and changes nothing else |
| DriverDashboard.DismissWritesNothing | app/src/main/java/com/riku/kisanmitra/ui/screens/driver/DriverDashboardScreen.kt:124-141 | Opening and dismissing the dialog leaves the store as it was and navigates nowhere |
| ListingDetailScreen.FindListing | app/src/main/java/com/riku/kisanmitra/ui/screens/buyer/ListingDetailScreen.kt:33 | Lookup by id finds nothing exactly when no listing has the id; otherwise it returns the first listing carrying it |
| ListingDetailScreen.ShownListing | app/src/main/java/com/riku/kisanmitra/ui/screens/buyer/ListingDetailScreen.kt:33 | Nothing is shown unless the listings are loaded; then the lookup by id decides |
| ListingDetailScreen.ShownIsTheListing | app/src/main/java/com/riku/kisanmitra/ui/screens/buyer/ListingDetailScreen.kt:33 | With unique ids, the screen shows exactly the listing carrying the id |
| ListingDetailScreen.Quantity | app/src/main/java/com/riku/kisanmitra/ui/screens/buyer/ListingDetailScreen.kt:109 | The quantity is the parsed field, or 0.0 when it does not parse |
| ListingDetailScreen.Estimate | app/src/main/java/com/riku/kisanmitra/ui/screens/buyer/ListingDetailScreen.kt:100 | The estimate is the parsed quantity × price per kg, and 0.0 when the field does not parse |
| ListingDetailScreen.OnPlaceOrder | app/src/main/java/com/riku/kisanmitra/ui/screens/buyer/ListingDetailScreen.kt:107-111 | Place Order builds the buyer's order for this listing and the field's quantity, leaves the store alone, and pops back |
| ListingDetailScreen.EstimateIsOrderTotal | app/src/main/java/com/riku/kisanmitra/ui/screens/buyer/ListingDetailScreen.kt:100-109 | The estimate shown equals the total of the order placed |
| TraderDashboardScreen.TabAt | app/src/main/java/com/riku/kisanmitra/ui/screens/trader/TraderDashboardScreen.kt:83-88 | Exactly the indices 0 to 3 select a tab |
| TraderDashboardScreen.TabIndex | app/src/main/java/com/riku/kisanmitra/ui/screens/trader/TraderDashboardScreen.kt:44 | Every tab sits at an index below 4 |
| TraderDashboardScreen.TabsRoundTrip | app/src/main/java/com/riku/kisanmitra/ui/screens/trader/TraderDashboardScreen.kt:44-88 | The tab row and the `when` agree in both directions: Buying, Selling, Transport, Update at 0 to 3 |
| TraderDashboardScreen.Reverse | app/src/main/java/com/riku/kisanmitra/ui/screens/trader/TraderDashboardScreen.kt:125 | Position i of the reversed list holds the listing at position length − 1 − i |
| TraderDashboardScreen.ReverseTwice | app/src/main/java/com/riku/kisanmitra/ui/screens/trader/TraderDashboardScreen.kt:125 | Reversing twice restores the list |
| TraderDashboardScreen.SellingList | app/src/main/java/com/riku/kisanmitra/ui/screens/trader/TraderDashboardScreen.kt:121-128 | The Selling tab has a list exactly when the listings are loaded, and it holds the loaded listings in reverse store order (position i holds the listing at length − 1 − i), hence the same listings with the same multiplicities |
| TraderDashboardScreen.ReverseSameElements | app/src/main/java/com/riku/kisanmitra/ui/screens/trader/TraderDashboardScreen.kt:125 | Reversing is a permutation |
| TraderDashboardScreen.NewestFirst | app/src/main/java/com/riku/kisanmitra/ui/screens/trader/TraderDashboardScreen.kt:125 | After a listing is created, it heads the Selling list, followed by the earlier list |
| TraderDashboardScreen.BuyNowRoute | app/src/main/java/com/riku/kisanmitra/ui/screens/trader/TraderDashboardScreen.kt:105 | Buy Now navigates to `listing_detail/` followed by the tapped listing's id, and the detail destination reads that id back when it can be a path segment |
| TraderDashboardScreen.BuyNowShowsListing | app/src/main/java/com/riku/kisanmitra/ui/screens/trader/TraderDashboardScreen.kt:104-105 | With unique ids, Buy Now reaches a detail screen that shows exactly the tapped listing |
| TraderDashboardScreen.OnEdit | app/src/main/java/com/riku/kisanmitra/ui/screens/trader/TraderDashboardScreen.kt:188-219 | Edit opens the dialog prefilled with the current price. Update with a parseable price requests that price for the listing and closes. Update with an unparseable price does nothing and stays open. Cancel or dismiss closes without a request |
| TraderDashboardScreen.ConfirmUntouchedKeepsPrice | app/src/main/java/com/riku/kisanmitra/ui/screens/trader/TraderDashboardScreen.kt:189-209 | Opening the dialog and confirming at once re-submits the current price, when its rendering parses back to it |
| TraderDashboardScreen.RequestOnlyFromParseableConfirm | app/src/main/java/com/riku/kisanmitra/ui/screens/trader/TraderDashboardScreen.kt:205-209 | A price update is requested if and only if Update is pressed on an open dialog whose text parses |
| CreateListingScreen.PostEnabledWhenFilled | app/src/main/java/com/riku/kisanmitra/ui/screens/farmer/CreateListingScreen.kt:242 | Post is enabled if and only if crop, quantity and price are all non-empty, so never on the blank form |
| CreateListingScreen.SelectVegetable | app/src/main/java/com/riku/kisanmitra/ui/screens/farmer/CreateListingScreen.kt:136-138 | Picking a vegetable sets the crop and closes the menu, leaving the other fields alone |
| CreateListingScreen.NumberOr0 | app/src/main/java/com/riku/kisanmitra/ui/screens/farmer/CreateListingScreen.kt:233-234 | A numeric field reads as its parse, or 0.0 when it does not parse |
| CreateListingScreen.OnPriceFocused | app/src/main/java/com/riku/kisanmitra/ui/screens/farmer/CreateListingScreen.kt:193-195 | Focusing the price field asks for advice if and only if a crop is chosen, with the quantity parsed or 0.0 |
| CreateListingScreen.Post | app/src/main/java/com/riku/kisanmitra/ui/screens/farmer/CreateListingScreen.kt:229-239 | Post hands the crop, parsed numbers and no images to `postListing`, so the stored listing carries the crop's default images |
| CreateListingScreen.UnparseablePostsZero | app/src/main/java/com/riku/kisanmitra/ui/screens/farmer/CreateListingScreen.kt:231-236 | Unparseable quantity and price are posted as 0.0 |
| CreateListingScreen.GetVegImage | app/src/main/java/com/riku/kisanmitra/ui/screens/farmer/CreateListingScreen.kt:292-304 | A name gets a picture other than the logo if and only if its lower-cased form is one of the eight names, and the picture illustrates that name |
| CreateListingScreen.VegetablesHavePictures | app/src/main/java/com/riku/kisanmitra/ui/screens/farmer/CreateListingScreen.kt:50-52 | Every menu entry has its own picture |
| CreateListingScreen.VegImageAgreesWithDisplay | app/src/main/java/com/riku/kisanmitra/ui/screens/farmer/CreateListingScreen.kt:293 | For a crop name without surrounding whitespace, the form's picture is the one an image-less listing displays |
| CreateListingScreen.PaddedNameDiffers | app/src/main/java/com/riku/kisanmitra/ui/screens/farmer/CreateListingScreen.kt:293 | " tomato" shows the logo in the form, while a listing of that name displays the tomato picture |
| OrderTimeline.Title | app/src/main/java/com/riku/kisanmitra/ui/screens/farmer/FarmerOrderStatusScreen.kt:54 | A step title is the status name with every underscore replaced by a space, character by character; it keeps the length and contains no underscore |
| OrderTimeline.Timeline | app/src/main/java/com/riku/kisanmitra/ui/screens/farmer/FarmerOrderStatusScreen.kt:49-59 | There is one step per status, in order. Step i is completed if and only if i ≤ the current ordinal, current if and only if i equals it, and last if and only if it is the final step |
| OrderTimeline.CompletedPrefix | app/src/main/java/com/riku/kisanmitra/ui/screens/farmer/FarmerOrderStatusScreen.kt:50 | Completed steps form a prefix of the timeline |
| OrderTimeline.OneCurrentStep | app/src/main/java/com/riku/kisanmitra/ui/screens/farmer/FarmerOrderStatusScreen.kt:51 | Exactly one step is current: the completed one titled with the current status |
| OrderTimeline.OneLastStep | app/src/main/java/com/riku/kisanmitra/ui/screens/farmer/FarmerOrderStatusScreen.kt:57 | Exactly the final step is flagged last |
| OrderTimeline.BookTransportWhen | app/src/main/java/com/riku/kisanmitra/ui/screens/farmer/FarmerOrderStatusScreen.kt:63 | Book Transport is offered if and only if the status is ORDER_RECEIVED, so never for the screen's fixed TRANSPORT_BOOKED |
| AuthScreens.CapEdit | app/src/main/java/com/riku/kisanmitra/ui/screens/auth/RegisterScreen.kt:154 | An edit within the cap is taken as typed; a longer one is rejected and the field keeps its value |
| AuthScreens.EditsStayCapped | app/src/main/java/com/riku/kisanmitra/ui/screens/auth/OtpScreen.kt:127 | Whatever is typed, a capped field never exceeds its cap. It holds its start value or one of the accepted edits |
| AuthScreens.LoginClick | app/src/main/java/com/riku/kisanmitra/ui/screens/auth/LoginScreen.kt:147-152 | Login is enabled if and only if the phone has at least 10 characters and nothing is loading; clicking runs `login(phone, role)` |
| AuthScreens.LoginCallback | app/src/main/java/com/riku/kisanmitra/ui/screens/auth/LoginScreen.kt:40-44 | `onLoginSuccess` fires, with the typed phone number, exactly when the state is `Success` |
| AuthScreens.ErrorText | app/src/main/java/com/riku/kisanmitra/ui/screens/auth/LoginScreen.kt:168-174 | On the login, OTP and PIN forms an error line is shown exactly for an `Error` state, with its message; the register form has no error line |
| AuthScreens.EnabledLoginSucceeds | app/src/main/java/com/riku/kisanmitra/ui/screens/auth/LoginScreen.kt:148-152 | An enabled login always reaches the success callback with the phone number and shows no error |
| AuthScreens.RegisterClick | app/src/main/java/com/riku/kisanmitra/ui/screens/auth/RegisterScreen.kt:169-172 | Register is enabled if and only if the name is non-empty, the phone has at least 10 characters, the PIN has 4, and nothing is loading; clicking runs `register` |
| AuthScreens.FiresOnSuccess | app/src/main/java/com/riku/kisanmitra/ui/screens/auth/RegisterScreen.kt:43-47 | The argument-free success callbacks fire exactly when the state is `Success`: `onRegisterSuccess` here, and `onVerificationSuccess` of the OTP and PIN forms |
| AuthScreens.RegisterPinGate | app/src/main/java/com/riku/kisanmitra/ui/screens/auth/RegisterScreen.kt:154-172 | The PIN field never holds more than 4 characters, and the button is enabled only with exactly 4 |
| AuthScreens.PinReachesEnabled | app/src/main/java/com/riku/kisanmitra/ui/screens/auth/RegisterScreen.kt:154-172 | Whatever was typed before, typing a 4-character PIN leaves exactly that PIN in the field, so the PIN condition of the button can always be met |
| AuthScreens.EnabledRegisterSucceeds | app/src/main/java/com/riku/kisanmitra/ui/screens/auth/RegisterScreen.kt:43-47 | An enabled registration fires the callback, and the new user becomes the session's logged-in row |
| AuthScreens.VerifyOtpClick | app/src/main/java/com/riku/kisanmitra/ui/screens/auth/OtpScreen.kt:147-150 | Verify is enabled if and only if the code has 6 characters and nothing is loading; clicking runs `verifyOtp(phone, otp)` |
| AuthScreens.OtpOutcome | app/src/main/java/com/riku/kisanmitra/ui/screens/auth/OtpScreen.kt:48-52 | An enabled verification fires the callback if and only if the code is "123456"; any other code shows "Invalid OTP" |
| AuthScreens.Tick | app/src/main/java/com/riku/kisanmitra/ui/screens/auth/OtpScreen.kt:41-46 | The countdown goes down by one second while positive, and rests at 0 |
| AuthScreens.TicksValue | app/src/main/java/com/riku/kisanmitra/ui/screens/auth/OtpScreen.kt:39-46 | After n seconds the countdown reads its start minus n, or 0 once it has run out |
| AuthScreens.OnResend | app/src/main/java/com/riku/kisanmitra/ui/screens/auth/OtpScreen.kt:161 | Resend is enabled only at 0, and it restarts the countdown at 60 |
| AuthScreens.ResendAfterAMinute | app/src/main/java/com/riku/kisanmitra/ui/screens/auth/OtpScreen.kt:39-46 | Resend becomes available exactly after 60 seconds, and then restarts a full minute |
| AuthScreens.VerifyPinClick | app/src/main/java/com/riku/kisanmitra/ui/screens/auth/PinScreen.kt:137-140 | Verify is enabled if and only if the PIN has 4 characters and nothing is loading; clicking runs `verifyPin(phone, pin)` |
| AuthScreens.AnyPinPasses | app/src/main/java/com/riku/kisanmitra/ui/screens/auth/PinScreen.kt:39-43 | Any four-character PIN fires the success callback and shows no error |
| AuthScreens.LoadingDisablesAll | app/src/main/java/com/riku/kisanmitra/ui/screens/auth/PinScreen.kt:140 | While a command is loading, none of the four forms' buttons is enabled |

## Left out

- Compose rendering: layout, colours, images, spinners and static screens. The dashboards, browse, tracking, earnings, transport-booking, active-trip, language-selection and role-selection screens only render data. Their navigation is covered through the graph.
- Android and dependency-injection wiring: `MainActivity`, the Hilt modules, the Room and DataStore setup, and the Retrofit AI service, which has no caller.
- Concurrency and timing. `delay`, coroutine scopes, `StateFlow` sharing and ordering across flows are not modelled. Each suspend call is one atomic step, and no cross-call serialisation is claimed.
- `updateListingPrice`: the fake repository has no body for it, so the model stops at the forwarded request (`BuyerViewModel.PriceUpdate`). What it does to the store is not modelled.
- `getTrips` and `getListings` return the stores themselves; there is no separate member for them.
- Number parsing and rendering, and `Double` rounding. `toDoubleOrNull` and `toString` are the parameters `parse` and `show`. Prices and quantities are exact reals.
- UUIDs, `System.currentTimeMillis()` and `Date()` are parameters supplied by the caller.
- `FakeMarketRepository.Seed`: one clock value `now` serves every seeded listing, where the source takes a separate `Date()` for each. The same holds for `FakeMarketRepository.OrdersForFarmer` and `FakeMarketRepository.OrdersForBuyer`, whose orders share one default timestamp. The clock readings are not modelled as distinct.
- The TFLite interpreters, `release`, and the system speech engine. The engine is a sink that records what it was asked to say.
- `speakPrompt` calls with their literal prompt texts in the create-listing screen; the prompts are free parameters.
- `Common.Lower`: models `lowercase(Locale.ROOT)` on ASCII letters only; other characters are kept as they are.
- `Common.TrimStart`: whitespace is the ASCII subset of what Kotlin's `trim` removes; Unicode spaces are not modelled. The same holds for `Common.TrimEnd`.
- `FarmerViewModel.AdviceText`: the contract states the reason-text suffix and the English opening. It does not state the full wording of the Kannada and English sentences.
- `UiState` itself comes from `ui/state/UiState.kt`, which is not part of this model. Its three cases are taken from how it is used.

=== FILE: auth_repository.dfy ===
/** `AuthRepositoryImpl`: the session operations over the `users` table.
    Each suspend call is one atomic step from a table to an outcome; the UUID
    a call would draw is the caller-supplied `freshId`. */
module AuthRepository {
  import opened Common
  import opened Models
  import opened UserDao

  /** The code `verifyOtp` accepts. */
  const OtpSentinel: string := "123456"

  /** What a call returns and the table it leaves behind. */
  datatype Outcome = Outcome(result: KResult<User>, table: Table)

  /** `logoutAll()` followed by `insertUser(user)`: the shared tail of
      `register`, `verifyOtp` and `verifyPin`. */
  function Promote(t: Table, user: User): (r: Table)
    requires user.isLoggedIn
    ensures LoggedInUser(r) == Some(user)
    ensures forall u :: u in r && u.isLoggedIn ==> u == user
    ensures AtMostOneLoggedIn(r)
    ensures UniqueIds(t) ==> Valid(r)
    ensures forall u :: u in t && u.id != user.id ==> u.(isLoggedIn := false) in r
    ensures forall u :: u in r && u != user ==> exists v :: v in t && u == v.(isLoggedIn := false)
  {
    PromoteKeepsRows(t, user);
    PromoteSingleSession(t, user);
    InsertUser(LogoutAll(t), user)
  }

  /** Every earlier row with another key survives `logoutAll` then `insertUser`
      with its flag cleared, and no other row appears besides the new one. */
  lemma PromoteKeepsRows(t: Table, user: User)
    ensures var r := InsertUser(LogoutAll(t), user);
            (forall u :: u in t && u.id != user.id ==> u.(isLoggedIn := false) in r)
            && (forall u :: u in r && u != user ==> exists v :: v in t && u == v.(isLoggedIn := false))
  {
    var cleared := LogoutAll(t);
    var r := InsertUser(cleared, user);
    forall u | u in t && u.id != user.id ensures u.(isLoggedIn := false) in r {
      var k :| 0 <= k < |t| && t[k] == u;
      assert cleared[k] == u.(isLoggedIn := false);
    }
    forall u | u in r && u != user ensures exists v :: v in t && u == v.(isLoggedIn := false) {
      var k :| 0 <= k < |cleared| && cleared[k] == u;
      assert t[k] in t;
    }
  }

  /** After `logoutAll` then `insertUser`, the new user is the one logged-in
      row, and the session query returns it. */
  lemma PromoteSingleSession(t: Table, user: User)
    requires user.isLoggedIn
    ensures var r := InsertUser(LogoutAll(t), user);
            LoggedInUser(r) == Some(user)
            && (forall u :: u in r && u.isLoggedIn ==> u == user)
            && AtMostOneLoggedIn(r)
            && (UniqueIds(t) ==> Valid(r))
  {
    var cleared := LogoutAll(t);
    LogoutAllClears(t);
    var r := InsertUser(cleared, user);
    assert r[|r| - 1] == user;
    assert AtMostOneLoggedIn(r) by {
      forall i, j | 0 <= i < |r| && 0 <= j < |r| && r[i].isLoggedIn && r[j].isLoggedIn ensures i == j {
        assert r[i] in r && r[j] in r;
      }
    }
    LoggedInUserExact(r, user);
  }

  /** `login`: fabricates a logged-in "Demo User" with the given phone and
      role and does not touch the table. */
  function Login(t: Table, phoneNumber: string, role: UserRole, freshId: string): (o: Outcome)
    ensures o.table == t
    ensures o.result.Ok?
    ensures o.result.value.phoneNumber == phoneNumber && o.result.value.role == role
    ensures o.result.value.name == "Demo User" && o.result.value.isLoggedIn
    ensures o.result.value.id == freshId && o.result.value.location == ""
  {
    Outcome(Ok(NewUser(freshId, "Demo User", phoneNumber, role).(isLoggedIn := true)), t)
  }

  /** `register`: demotes every row, then stores the new user as the only
      logged-in row. The `pin` argument is not stored: `User` has no such field. */
  function Register(t: Table, name: string, phoneNumber: string, pin: string,
                    role: UserRole, freshId: string): (o: Outcome)
    ensures o.result.Ok?
    ensures o.result.value == User(freshId, name, phoneNumber, role, "", true)
    ensures LoggedInUser(o.table) == Some(o.result.value)
    ensures forall u :: u in o.table && u.isLoggedIn ==> u == o.result.value
    ensures UniqueIds(t) ==> Valid(o.table)
  {
    var user := NewUser(freshId, name, phoneNumber, role).(isLoggedIn := true);
    Outcome(Ok(user), Promote(t, user))
  }

  /** `verifyOtp`: succeeds exactly for the sentinel code, with a FARMER user;
      any other code fails with "Invalid OTP" and leaves the table alone. */
  function VerifyOtp(t: Table, phoneNumber: string, otp: string, freshId: string): (o: Outcome)
    ensures o.result.Ok? <==> otp == OtpSentinel
    ensures !o.result.Ok? ==> o.table == t && o.result == Failure(Some("Invalid OTP"))
    ensures o.result.Ok? ==> o.result.value == User(freshId, "Verified User", phoneNumber, Farmer, "", true)
    ensures o.result.Ok? ==> LoggedInUser(o.table) == Some(o.result.value)
    ensures o.result.Ok? ==> forall u :: u in o.table && u.isLoggedIn ==> u == o.result.value
    ensures UniqueIds(t) ==> UniqueIds(o.table)
    ensures Valid(t) ==> Valid(o.table)
  {
    if otp == OtpSentinel then
      var user := NewUser(freshId, "Verified User", phoneNumber, Farmer).(isLoggedIn := true);
      Outcome(Ok(user), Promote(t, user))
    else
      Outcome(Failure(Some("Invalid OTP")), t)
  }

  /** `verifyPin`: accepts every PIN, making a FARMER user logged in. */
  function VerifyPin(t: Table, phoneNumber: string, pin: string, freshId: string): (o: Outcome)
    ensures o.result.Ok?
    ensures o.result.value == User(freshId, "PIN Verified User", phoneNumber, Farmer, "", true)
    ensures LoggedInUser(o.table) == Some(o.result.value)
    ensures forall u :: u in o.table && u.isLoggedIn ==> u == o.result.value
    ensures UniqueIds(t) ==> Valid(o.table)
  {
    var user := NewUser(freshId, "PIN Verified User", phoneNumber, Farmer).(isLoggedIn := true);
    Outcome(Ok(user), Promote(t, user))
  }

  /** No comparison is made: two different PINs give the same outcome. */
  lemma VerifyPinIgnoresPin(t: Table, phoneNumber: string, pin1: string, pin2: string, freshId: string)
    ensures VerifyPin(t, phoneNumber, pin1, freshId) == VerifyPin(t, phoneNumber, pin2, freshId)
  {
  }

  /** The role chosen before verification plays no part: the user is a FARMER. */
  lemma VerificationMakesFarmer(t: Table, phoneNumber: string, pin: string, freshId: string)
    ensures VerifyPin(t, phoneNumber, pin, freshId).result.value.role == Farmer
    ensures VerifyOtp(t, phoneNumber, OtpSentinel, freshId).result.value.role == Farmer
  {
  }

  /** `logout`: clears every flag and deletes no row. */
  function Logout(t: Table): (r: Table)
    ensures |r| == |t|
    ensures forall i :: 0 <= i < |t| ==> r[i].id == t[i].id && !r[i].isLoggedIn
    ensures LoggedInUser(r).None?
    ensures UniqueIds(t) ==> Valid(r)
  {
    LogoutAllClears(t);
    LogoutAll(t)
  }

  /** `getLoggedInUser`: the DAO's query, unchanged. */
  function GetLoggedInUser(t: Table): (r: Option<User>)
    ensures r.Some? ==> r.value in t && r.value.isLoggedIn
    ensures r.None? ==> forall u :: u in t ==> !u.isLoggedIn
  {
    LoggedInUser(t)
  }

  // ---------------------------------------------------------------------------
  // The session invariant over any sequence of calls
  // ---------------------------------------------------------------------------

  /** One call on the repository, with its arguments. */
  datatype Call =
    | LoginCall(phoneNumber: string, role: UserRole)
    | RegisterCall(name: string, phoneNumber: string, pin: string, role: UserRole)
    | VerifyOtpCall(phoneNumber: string, otp: string)
    | VerifyPinCall(phoneNumber: string, pin: string)
    | LogoutCall

  /** The table after one call settles. */
  function Apply(t: Table, c: Call, freshId: string): Table
  {
    match c
    case LoginCall(p, r) => Login(t, p, r, freshId).table
    case RegisterCall(n, p, pin, r) => Register(t, n, p, pin, r, freshId).table
    case VerifyOtpCall(p, otp) => VerifyOtp(t, p, otp, freshId).table
    case VerifyPinCall(p, pin) => VerifyPin(t, p, pin, freshId).table
    case LogoutCall => Logout(t)
  }

  /** The table after the calls settle one after another, each drawing its
      own fresh id. */
  function Run(t: Table, calls: seq<Call>, freshIds: seq<string>): Table
    requires |freshIds| == |calls|
    decreases |calls|
  {
    if calls == [] then t
    else Run(Apply(t, calls[0], freshIds[0]), calls[1..], freshIds[1..])
  }

  /** Every call keeps the table keyed and with at most one logged-in row. */
  lemma ApplyKeepsValid(t: Table, c: Call, freshId: string)
    requires Valid(t)
    ensures Valid(Apply(t, c, freshId))
  {
  }

  /** After any sequence of calls, at most one row is logged in. */
  lemma {:induction false} RunKeepsValid(t: Table, calls: seq<Call>, freshIds: seq<string>)
    requires Valid(t)
    requires |freshIds| == |calls|
    ensures Valid(Run(t, calls, freshIds))
    ensures AtMostOneLoggedIn(Run(t, calls, freshIds))
    decreases |calls|
  {
    if calls != [] {
      ApplyKeepsValid(t, calls[0], freshIds[0]);
      RunKeepsValid(Apply(t, calls[0], freshIds[0]), calls[1..], freshIds[1..]);
    }
  }
}

=== FILE: auth_screens.dfy ===
/** The four auth forms: their input caps, the enable predicates of their
    buttons, what a click dispatches, the success callbacks, the error line
    of the login, OTP and PIN forms (the register form has none), and the OTP
    resend countdown. */
module AuthScreens {
  import opened Common
  import opened Models
  import AuthRepository
  import AuthViewModel

  type AuthState = Option<UiState<User>>

  predicate IsLoading(s: AuthState)
  {
    s == Some(Loading)
  }

  // ---------------------------------------------------------------------------
  // Capped fields
  // ---------------------------------------------------------------------------

  /** `onValueChange = { if (it.length <= cap) field = it }` */
  function CapEdit(current: string, proposed: string, cap: nat): (r: string)
    ensures |proposed| <= cap ==> r == proposed
    ensures |proposed| > cap ==> r == current
  {
    if |proposed| <= cap then proposed else current
  }

  /** A run of edits on a capped field. */
  function ApplyEdits(start: string, edits: seq<string>, cap: nat): string
    decreases |edits|
  {
    if edits == [] then start else ApplyEdits(CapEdit(start, edits[0], cap), edits[1..], cap)
  }

  /** Typing one more edit after a run of edits is the same as applying it to
      the run's result. */
  lemma {:induction false} ApplyEditsThen(start: string, edits: seq<string>, e: string, cap: nat)
    ensures ApplyEdits(start, edits + [e], cap) == CapEdit(ApplyEdits(start, edits, cap), e, cap)
    decreases |edits|
  {
    if edits == [] {
      assert edits + [e] == [e];
      assert [e][1..] == [];
    } else {
      assert (edits + [e])[1..] == edits[1..] + [e];
      ApplyEditsThen(CapEdit(start, edits[0], cap), edits[1..], e, cap);
    }
  }

  /** Whatever is typed, a field that starts within its cap stays within it,
      and holds either its start or one of the accepted edits. */
  lemma {:induction false} EditsStayCapped(start: string, edits: seq<string>, cap: nat)
    requires |start| <= cap
    ensures |ApplyEdits(start, edits, cap)| <= cap
    ensures ApplyEdits(start, edits, cap) == start
            || exists i :: 0 <= i < |edits| && edits[i] == ApplyEdits(start, edits, cap)
    decreases |edits|
  {
    if edits != [] {
      var next := CapEdit(start, edits[0], cap);
      EditsStayCapped(next, edits[1..], cap);
      var r := ApplyEdits(next, edits[1..], cap);
      if r != next {
        var i :| 0 <= i < |edits[1..]| && edits[1..][i] == r;
        assert edits[i + 1] == r;
      } else if next != start {
        assert edits[0] == r;
      }
    }
  }

  const PinLength: nat := 4
  const OtpLength: nat := 6
  const MinPhoneLength: nat := 10

  // ---------------------------------------------------------------------------
  // Login
  // ---------------------------------------------------------------------------

  predicate LoginEnabled(phoneNumber: string, s: AuthState)
  {
    |phoneNumber| >= MinPhoneLength && !IsLoading(s)
  }

  /** The Login button: when enabled, `login(phoneNumber, role)` runs. */
  function LoginClick(vm: AuthViewModel.AuthVm, phoneNumber: string, role: UserRole,
                      freshId: string): (r: Option<AuthViewModel.Step>)
    ensures r.Some? <==> |phoneNumber| >= 10 && vm.authState != Some(Loading)
    ensures r.Some? ==> r.value == AuthViewModel.Dispatch(vm, AuthViewModel.Login(phoneNumber, role), freshId)
  {
    if LoginEnabled(phoneNumber, vm.authState)
    then Some(AuthViewModel.Dispatch(vm, AuthViewModel.Login(phoneNumber, role), freshId))
    else None
  }

  /** `onLoginSuccess(phoneNumber)` fires when the state becomes `Success`. */
  function LoginCallback(s: AuthState, phoneNumber: string): (r: Option<string>)
    ensures r.Some? <==> s.Some? && s.value.Success?
    ensures r.Some? ==> r.value == phoneNumber
  {
    if s.Some? && s.value.Success? then Some(phoneNumber) else None
  }

  /** The error line under the login, OTP and PIN forms: the `Error` message,
      if any. The register form shows no error line. */
  function ErrorText(s: AuthState): (r: Option<string>)
    ensures r.Some? <==> s.Some? && s.value.Error?
    ensures r.Some? ==> r.value == s.value.message
  {
    match s
    case Some(Error(m)) => Some(m)
    case _ => None
  }

  /** Against the repository as implemented, an enabled login always reaches
      the success callback with the typed number, and shows no error. */
  lemma EnabledLoginSucceeds(vm: AuthViewModel.AuthVm, phoneNumber: string, role: UserRole,
                             freshId: string)
    requires LoginEnabled(phoneNumber, vm.authState)
    ensures var s := LoginClick(vm, phoneNumber, role, freshId).value.after.authState;
            LoginCallback(s, phoneNumber) == Some(phoneNumber) && ErrorText(s).None?
  {
    AuthViewModel.DispatchOutcomes(vm, AuthViewModel.Login(phoneNumber, role), freshId);
  }

  // ---------------------------------------------------------------------------
  // Register
  // ---------------------------------------------------------------------------

  predicate RegisterEnabled(name: string, phoneNumber: string, pin: string, s: AuthState)
  {
    name != [] && |phoneNumber| >= MinPhoneLength && |pin| == PinLength && !IsLoading(s)
  }

  /** The Register button: when enabled, `register(name, phone, pin, role)` runs. */
  function RegisterClick(vm: AuthViewModel.AuthVm, name: string, phoneNumber: string, pin: string,
                         role: UserRole, freshId: string): (r: Option<AuthViewModel.Step>)
    ensures r.Some? <==> |name| > 0 && |phoneNumber| >= 10 && |pin| == 4 && vm.authState != Some(Loading)
    ensures r.Some? ==> r.value == AuthViewModel.Dispatch(vm, AuthViewModel.Register(name, phoneNumber, pin, role), freshId)
  {
    if RegisterEnabled(name, phoneNumber, pin, vm.authState)
    then Some(AuthViewModel.Dispatch(vm, AuthViewModel.Register(name, phoneNumber, pin, role), freshId))
    else None
  }

  /** The argument-free success callbacks (`onRegisterSuccess`, and
      `onVerificationSuccess` of the OTP and PIN forms) fire when the state
      becomes `Success`. */
  function FiresOnSuccess(s: AuthState): (fired: bool)
    ensures fired <==> s.Some? && s.value.Success?
  {
    match s
    case Some(Success(_)) => true
    case _ => false
  }

  /** The PIN field never holds more than four characters, and only exactly
      four can enable the button. */
  lemma RegisterPinGate(pin: string, edits: seq<string>, name: string, phoneNumber: string, s: AuthState)
    requires |pin| <= PinLength
    ensures |ApplyEdits(pin, edits, PinLength)| <= 4
    ensures RegisterEnabled(name, phoneNumber, ApplyEdits(pin, edits, PinLength), s) ==>
              |ApplyEdits(pin, edits, PinLength)| == 4
  {
    EditsStayCapped(pin, edits, PinLength);
  }
  /** Whatever was typed before, typing a four-character PIN fills the field
      with it, so the form can always reach the enabled state. */
  lemma PinReachesEnabled(pin: string, edits: seq<string>, p: string, name: string,
                          phoneNumber: string, s: AuthState)
    requires |p| == PinLength
    ensures ApplyEdits(pin, edits + [p], PinLength) == p
    ensures RegisterEnabled(name, phoneNumber, ApplyEdits(pin, edits + [p], PinLength), s)
            <==> RegisterEnabled(name, phoneNumber, p, s)
  {
    ApplyEditsThen(pin, edits, p, PinLength);
  }


  /** An enabled registration ends in `Success` with the new user logged in,
      and fires the callback. */
  lemma EnabledRegisterSucceeds(vm: AuthViewModel.AuthVm, name: string, phoneNumber: string, pin: string,
                                role: UserRole, freshId: string)
    requires RegisterEnabled(name, phoneNumber, pin, vm.authState)
    ensures var after := RegisterClick(vm, name, phoneNumber, pin, role, freshId).value.after;
            FiresOnSuccess(after.authState)
            && SessionUser(after) == Some(after.authState.value.data)
  {
    var c := AuthViewModel.Register(name, phoneNumber, pin, role);
    AuthViewModel.DispatchOutcomes(vm, c, freshId);
    AuthViewModel.SuccessLogsIn(vm, c, freshId);
  }

  /** The logged-in row of the view-model's table. */
  function SessionUser(vm: AuthViewModel.AuthVm): Option<User>
  {
    AuthRepository.GetLoggedInUser(vm.table)
  }

  // ---------------------------------------------------------------------------
  // OTP
  // ---------------------------------------------------------------------------

  predicate VerifyOtpEnabled(otp: string, s: AuthState)
  {
    |otp| == OtpLength && !IsLoading(s)
  }

  /** The Verify button: when enabled, `verifyOtp(phone, otp)` runs. */
  function VerifyOtpClick(vm: AuthViewModel.AuthVm, phoneNumber: string, otp: string,
                          freshId: string): (r: Option<AuthViewModel.Step>)
    ensures r.Some? <==> |otp| == 6 && vm.authState != Some(Loading)
    ensures r.Some? ==> r.value == AuthViewModel.Dispatch(vm, AuthViewModel.VerifyOtp(phoneNumber, otp), freshId)
  {
    if VerifyOtpEnabled(otp, vm.authState)
    then Some(AuthViewModel.Dispatch(vm, AuthViewModel.VerifyOtp(phoneNumber, otp), freshId))
    else None
  }

  /** An enabled verification succeeds exactly for the sentinel code; any other
      six characters show "Invalid OTP" and fire nothing. */
  lemma OtpOutcome(vm: AuthViewModel.AuthVm, phoneNumber: string, otp: string, freshId: string)
    requires VerifyOtpEnabled(otp, vm.authState)
    ensures var s := VerifyOtpClick(vm, phoneNumber, otp, freshId).value.after.authState;
            (FiresOnSuccess(s) <==> otp == AuthRepository.OtpSentinel)
            && (otp != AuthRepository.OtpSentinel ==> ErrorText(s) == Some("Invalid OTP"))
  {
    AuthViewModel.DispatchOutcomes(vm, AuthViewModel.VerifyOtp(phoneNumber, otp), freshId);
  }

  /** The resend countdown's start and reset value, in seconds. */
  const ResendSeconds: nat := 60

  /** One second of the countdown: it decreases while positive and rests at 0. */
  function Tick(timer: nat): (r: nat)
    ensures timer > 0 ==> r == timer - 1
    ensures timer == 0 ==> r == 0
  {
    if timer > 0 then timer - 1 else timer
  }

  /** `n` seconds of the countdown. */
  function Ticks(timer: nat, n: nat): nat
    decreases n
  {
    if n == 0 then timer else Ticks(Tick(timer), n - 1)
  }

  /** After `n` seconds the countdown reads `timer - n`, or 0 once it has run out. */
  lemma {:induction false} TicksValue(timer: nat, n: nat)
    ensures Ticks(timer, n) == if n <= timer then timer - n else 0
    decreases n
  {
    if n > 0 {
      TicksValue(Tick(timer), n - 1);
    }
  }

  predicate ResendEnabled(timer: nat)
  {
    timer == 0
  }

  /** The resend button: enabled only at 0, and it restarts the countdown. */
  function OnResend(timer: nat): (r: nat)
    ensures ResendEnabled(timer) ==> r == ResendSeconds
    ensures !ResendEnabled(timer) ==> r == timer
  {
    if ResendEnabled(timer) then ResendSeconds else timer
  }

  /** Resend becomes available exactly after sixty seconds, and resending
      starts another full minute. */
  lemma ResendAfterAMinute(n: nat)
    ensures ResendEnabled(Ticks(ResendSeconds, n)) <==> n >= 60
    ensures n >= 60 ==> OnResend(Ticks(ResendSeconds, n)) == 60
  {
    TicksValue(ResendSeconds, n);
  }

  // ---------------------------------------------------------------------------
  // PIN
  // ---------------------------------------------------------------------------

  predicate VerifyPinEnabled(pin: string, s: AuthState)
  {
    |pin| == PinLength && !IsLoading(s)
  }

  /** The Verify button of the PIN form: when enabled, `verifyPin(phone, pin)` runs. */
  function VerifyPinClick(vm: AuthViewModel.AuthVm, phoneNumber: string, pin: string,
                          freshId: string): (r: Option<AuthViewModel.Step>)
    ensures r.Some? <==> |pin| == 4 && vm.authState != Some(Loading)
    ensures r.Some? ==> r.value == AuthViewModel.Dispatch(vm, AuthViewModel.VerifyPin(phoneNumber, pin), freshId)
  {
    if VerifyPinEnabled(pin, vm.authState)
    then Some(AuthViewModel.Dispatch(vm, AuthViewModel.VerifyPin(phoneNumber, pin), freshId))
    else None
  }

  /** Any four characters pass: an enabled PIN verification always fires the
      success callback and shows no error. */
  lemma AnyPinPasses(vm: AuthViewModel.AuthVm, phoneNumber: string, pin: string, freshId: string)
    requires VerifyPinEnabled(pin, vm.authState)
    ensures var s := VerifyPinClick(vm, phoneNumber, pin, freshId).value.after.authState;
            FiresOnSuccess(s) && ErrorText(s).None?
  {
    AuthViewModel.DispatchOutcomes(vm, AuthViewModel.VerifyPin(phoneNumber, pin), freshId);
  }

  /** While a command is loading no button of any form is enabled, so a second
      command cannot start. */
  lemma LoadingDisablesAll(name: string, phoneNumber: string, pin: string, otp: string)
    ensures !LoginEnabled(phoneNumber, Some(Loading))
    ensures !RegisterEnabled(name, phoneNumber, pin, Some(Loading))
    ensures !VerifyOtpEnabled(otp, Some(Loading))
    ensures !VerifyPinEnabled(pin, Some(Loading))
  {
  }
}

=== FILE: auth_view_model.dfy ===
/** `AuthViewModel`: the nullable `authState` driven by the five auth commands.
    A command publishes `Loading`, runs one repository call as an atomic step,
    and publishes exactly one terminal state. */
module AuthViewModel {
  import opened Common
  import opened Models
  import opened UserDao
  import AuthRepository

  /** `authState` (null before any command) beside the table the repository owns. */
  datatype AuthVm = AuthVm(table: Table, authState: Option<UiState<User>>)

  /** A freshly created view-model: `authState` starts as null. */
  function Init(t: Table): (vm: AuthVm)
    ensures vm.authState.None? && vm.table == t
  {
    AuthVm(t, None)
  }

  /** The four commands that go through `Loading`. */
  datatype Command =
    | Login(phoneNumber: string, role: UserRole)
    | Register(name: string, phoneNumber: string, pin: string, role: UserRole)
    | VerifyOtp(phoneNumber: string, otp: string)
    | VerifyPin(phoneNumber: string, pin: string)

  /** The message shown when a failure carries none. */
  function Fallback(c: Command): string
  {
    match c
    case Login(_, _) => "Login failed"
    case Register(_, _, _, _) => "Registration failed"
    case VerifyOtp(_, _) => "Invalid OTP"
    case VerifyPin(_, _) => "Invalid PIN"
  }

  /** The repository call behind each command. */
  function Call(t: Table, c: Command, freshId: string): AuthRepository.Outcome
  {
    match c
    case Login(p, r) => AuthRepository.Login(t, p, r, freshId)
    case Register(n, p, pin, r) => AuthRepository.Register(t, n, p, pin, r, freshId)
    case VerifyOtp(p, otp) => AuthRepository.VerifyOtp(t, p, otp, freshId)
    case VerifyPin(p, pin) => AuthRepository.VerifyPin(t, p, pin, freshId)
  }

  /** The values `authState` takes while a command runs, given the result the
      repository call settled with. */
  function Publish(c: Command, result: KResult<User>): (trace: seq<Option<UiState<User>>>)
    ensures |trace| == 2 && trace[0] == Some(Loading)
    ensures trace[1].Some? && !trace[1].value.Loading?
    ensures trace[1].value.Success? <==> result.Ok?
    ensures result.Ok? ==> trace[1] == Some(Success(result.value))
    ensures result.Failure? && result.message.Some? ==> trace[1] == Some(Error(result.message.value))
    ensures result == Failure(None) ==> trace[1] == Some(Error(Fallback(c)))
  {
    [Some(Loading), Some(Settle(result, Fallback(c)))]
  }

  /** One command from start to finish: what it publishes and where it leaves
      the view-model. */
  datatype Step = Step(published: seq<Option<UiState<User>>>, after: AuthVm)

  function Dispatch(vm: AuthVm, c: Command, freshId: string): (s: Step)
    ensures |s.published| == 2 && s.published[0] == Some(Loading)
    ensures s.after.authState == s.published[1]
    ensures s.after.table == Call(vm.table, c, freshId).table
    ensures s.after.authState.Some? && !s.after.authState.value.Loading?
    ensures s.after.authState.value.Success? <==> Call(vm.table, c, freshId).result.Ok?
    ensures s.published == Publish(c, Call(vm.table, c, freshId).result)
  {
    var o := Call(vm.table, c, freshId);
    var trace := Publish(c, o.result);
    Step(trace, AuthVm(o.table, trace[1]))
  }

  /** Against the repository as implemented: login, register and PIN
      verification always end in `Success`, and OTP verification ends in
      `Success` exactly for the sentinel, otherwise in `Error("Invalid OTP")`. */
  lemma DispatchOutcomes(vm: AuthVm, c: Command, freshId: string)
    ensures var s := Dispatch(vm, c, freshId);
            if c.VerifyOtp? && c.otp != AuthRepository.OtpSentinel
            then s.after.authState == Some(Error("Invalid OTP")) && s.after.table == vm.table
            else s.after.authState.value.Success?
  {
  }

  /** A command that ends in `Success` leaves its user as the logged-in row,
      except `login`, which does not write the table. */
  lemma SuccessLogsIn(vm: AuthVm, c: Command, freshId: string)
    requires !c.Login?
    requires Dispatch(vm, c, freshId).after.authState.value.Success?
    ensures var s := Dispatch(vm, c, freshId);
            LoggedInUser(s.after.table) == Some(s.after.authState.value.data)
  {
  }

  /** `logout`: the repository logout runs, then `authState` is reset to null. */
  function Logout(vm: AuthVm): (r: AuthVm)
    ensures r.authState.None?
    ensures LoggedInUser(r.table).None?
    ensures |r.table| == |vm.table|
    ensures forall i :: 0 <= i < |vm.table| ==> r.table[i].id == vm.table[i].id
  {
    AuthVm(AuthRepository.Logout(vm.table), None)
  }
}

=== FILE: buyer_view_model.dfy ===
/** `BuyerViewModel`: the buyer's live-price, listing and order states, the
    order a buyer places, and the price update it forwards. */
module BuyerViewModel {
  import opened Common
  import opened Models
  import FakeMarketRepository

  /** The buyer every request is made for. */
  const BuyerId: string := "b1"

  datatype BuyerVm = BuyerVm(livePrices: UiState<seq<Crop>>,
                             listings: UiState<seq<Listing>>,
                             orders: UiState<seq<Order>>)

  /** Before any emission all three are loading. */
  const Initial: BuyerVm := BuyerVm(Loading, Loading, Loading)

  /** `loadData` against the store: each stream's emission arrives as
      `Success`, and the orders are the ones asked for buyer "b1". */
  function Loaded(vm: BuyerVm, m: FakeMarketRepository.Market, now: int): (r: BuyerVm)
    ensures r.livePrices == Success(FakeMarketRepository.LivePrices)
    ensures r.listings == Success(m.listings)
    ensures r.orders == Success(FakeMarketRepository.OrdersForBuyer(BuyerId, now))
    ensures |r.orders.data| == 1
    ensures forall i :: 0 <= i < |r.orders.data| ==> r.orders.data[i].buyerId == BuyerId
  {
    BuyerVm(Success(FakeMarketRepository.LivePrices), Success(m.listings),
            Success(FakeMarketRepository.OrdersForBuyer(BuyerId, now)))
  }

  /** The order `placeOrder` builds; `id` is the clock's millisecond string and
      `now` the defaulted timestamp. */
  function MakeOrder(listing: Listing, quantity: real, id: string, now: int): (o: Order)
    ensures o.listingId == listing.id && o.buyerId == BuyerId
    ensures o.driverId.None? && o.status == OrderReceived
    ensures o.quantity == quantity && o.totalPrice == quantity * listing.pricePerKg
  {
    Order(id, listing.id, BuyerId, None, OrderReceived, quantity, quantity * listing.pricePerKg, now)
  }

  /** A non-zero order's price per kilogram is the listing's. */
  lemma OrderUnitPrice(listing: Listing, quantity: real, id: string, now: int)
    requires quantity != 0.0
    ensures MakeOrder(listing, quantity, id, now).totalPrice / quantity == listing.pricePerKg
  {
  }

  /** `placeOrder`: the order is handed to the repository, which writes nothing. */
  function PlaceOrder(m: FakeMarketRepository.Market, listing: Listing, quantity: real,
                      id: string, now: int): (r: FakeMarketRepository.Market)
    ensures r == m
  {
    FakeMarketRepository.PlaceOrder(m, MakeOrder(listing, quantity, id, now)).market
  }

  /** The repository call `updateListingPrice` makes. The fake repository has no
      body for it, so the model stops at the request. */
  datatype PriceUpdate = PriceUpdate(listingId: string, newPrice: real)

  /** `updateListingPrice`: forwards the id and the price unchanged. */
  function UpdateListingPrice(listingId: string, newPrice: real): (r: PriceUpdate)
    ensures r.listingId == listingId && r.newPrice == newPrice
  {
    PriceUpdate(listingId, newPrice)
  }
}

=== FILE: common.dfy ===
/** Value types shared by every layer of the client: nullable values,
    Kotlin's `Result`, the screens' tri-state `UiState`, and the few string
    operations the app applies to crop names and enum names. */
module Common {

  /** A nullable value (`T?`). */
  datatype Option<+T> = None | Some(value: T)

  /** Kotlin's `Result<T>`. A failure carries a throwable whose message may be null. */
  datatype KResult<+T> = Ok(value: T) | Failure(message: Option<string>)

  /** The screens' asynchronous-value wrapper (`ui/state/UiState`). */
  datatype UiState<+T> = Loading | Success(data: T) | Error(message: string)

  /** Kotlin's elvis operator `value ?: default`. */
  function ValueOr<T>(o: Option<T>, default: T): T
  {
    match o
    case Some(v) => v
    case None => default
  }

  /** `it.message ?: fallback` */
  function MessageOr(message: Option<string>, fallback: string): string
  {
    ValueOr(message, fallback)
  }

  /** The terminal state a view-model publishes once a call settles:
      `.onSuccess { Success(it) }.onFailure { Error(it.message ?: fallback) }`. */
  function Settle<T>(r: KResult<T>, fallback: string): (s: UiState<T>)
    ensures !s.Loading?
    ensures s.Success? <==> r.Ok?
    ensures s.Success? ==> s.data == r.value
    ensures s.Error? ==> s.message == MessageOr(r.message, fallback)
  {
    match r
    case Ok(v) => Success(v)
    case Failure(m) => Error(MessageOr(m, fallback))
  }

  // ---------------------------------------------------------------------------
  // Strings
  // ---------------------------------------------------------------------------

  /** The characters Kotlin's `trim()` removes, restricted to ASCII. */
  predicate IsSpace(c: char)
  {
    c == ' ' || c == '\t' || c == '\n' || c == '\r' || c == '\U{000B}' || c == '\U{000C}'
    || ('\U{001C}' <= c <= '\U{001F}')
  }

  /** `Char.lowercaseChar()` on ASCII letters; every other character is kept. */
  function LowerChar(c: char): char
  {
    if 'A' <= c <= 'Z' then (c as int + 32) as char else c
  }

  /** `lowercase(Locale.ROOT)` on ASCII. */
  function Lower(s: string): (r: string)
    ensures |r| == |s|
    ensures forall i :: 0 <= i < |s| ==> r[i] == LowerChar(s[i])
  {
    if s == [] then [] else [LowerChar(s[0])] + Lower(s[1..])
  }

  /** Leading whitespace removed. */
  function TrimStart(s: string): (r: string)
    ensures |r| <= |s| && r == s[|s| - |r|..]
    ensures r == [] || !IsSpace(r[0])
    ensures forall i :: 0 <= i < |s| - |r| ==> IsSpace(s[i])
  {
    if s != [] && IsSpace(s[0]) then TrimStart(s[1..]) else s
  }

  /** Trailing whitespace removed. */
  function TrimEnd(s: string): (r: string)
    ensures |r| <= |s| && r == s[..|r|]
    ensures r == [] || !IsSpace(r[|r| - 1])
    ensures forall i :: |r| <= i < |s| ==> IsSpace(s[i])
  {
    if s != [] && IsSpace(s[|s| - 1]) then TrimEnd(s[..|s| - 1]) else s
  }

  /** Kotlin's `trim()`. */
  function Trim(s: string): string
  {
    TrimEnd(TrimStart(s))
  }

  /** `replace(from, to)` for single characters. */
  function ReplaceChar(s: string, from: char, to: char): (r: string)
    ensures |r| == |s|
    ensures forall i :: 0 <= i < |s| ==> r[i] == (if s[i] == from then to else s[i])
  {
    if s == [] then [] else [if s[0] == from then to else s[0]] + ReplaceChar(s[1..], from, to)
  }

  lemma LowerKeepsSpace(c: char)
    ensures IsSpace(LowerChar(c)) <==> IsSpace(c)
  {
  }

  lemma {:induction false} TrimStartOfLower(s: string)
    ensures TrimStart(Lower(s)) == Lower(TrimStart(s))
    decreases |s|
  {
    if s != [] {
      LowerKeepsSpace(s[0]);
      assert Lower(s)[1..] == Lower(s[1..]);
      if IsSpace(s[0]) {
        TrimStartOfLower(s[1..]);
      }
    }
  }

  lemma {:induction false} TrimEndOfLower(s: string)
    ensures TrimEnd(Lower(s)) == Lower(TrimEnd(s))
    decreases |s|
  {
    if s != [] {
      LowerKeepsSpace(s[|s| - 1]);
      assert Lower(s)[..|s| - 1] == Lower(s[..|s| - 1]);
      if IsSpace(s[|s| - 1]) {
        TrimEndOfLower(s[..|s| - 1]);
      }
    }
  }

  /** Lower-casing and trimming commute, so `lowercase().trim()` and
      `trim().lowercase()` name the same key. */
  lemma TrimLowerCommute(s: string)
    ensures Trim(Lower(s)) == Lower(Trim(s))
  {
    TrimStartOfLower(s);
    TrimEndOfLower(TrimStart(s));
  }

  /** A string with no whitespace at either end is its own trim. */
  lemma TrimUnpadded(s: string)
    requires s == [] || (!IsSpace(s[0]) && !IsSpace(s[|s| - 1]))
    ensures Trim(s) == s
  {
  }

  /** A name whose lower-cased letters spell an unpadded key normalises to it
      under `lowercase().trim()`. */
  lemma NormalisesTo(name: string, key: string)
    requires |name| == |key| && key != []
    requires forall i :: 0 <= i < |name| ==> LowerChar(name[i]) == key[i]
    requires !IsSpace(key[0]) && !IsSpace(key[|key| - 1])
    ensures Trim(Lower(name)) == key
  {
    assert Lower(name) == key;
    TrimUnpadded(key);
  }

  /** Lower-casing is idempotent: the lookups are case-insensitive. */
  lemma LowerIdempotent(s: string)
    ensures Lower(Lower(s)) == Lower(s)
  {
  }
}

=== FILE: create_listing.dfy ===
/** The create-listing form: its fields, the crop dropdown, the advice request
    on price focus, the Post button, and `getVegImage`. */
module CreateListingScreen {
  import opened Common
  import opened Models
  import FakeMarketRepository
  import FarmerViewModel

  /** The dropdown's vegetables, in display order: the crop-image names. */
  const Vegetables: seq<string> := CropNames

  /** The form's remembered state. */
  datatype Form = Form(cropType: string, quantity: string, expectedPrice: string, expanded: bool)

  /** All fields empty and the menu closed. */
  const Blank: Form := Form("", "", "", false)

  /** The Post Listing button is enabled exactly when all three fields are filled. */
  predicate PostEnabled(f: Form)
  {
    f.cropType != [] && f.quantity != [] && f.expectedPrice != []
  }

  /** A blank form cannot be posted; filling the three fields enables it. */
  lemma PostEnabledWhenFilled(f: Form)
    ensures !PostEnabled(Blank)
    ensures PostEnabled(f) <==> |f.cropType| > 0 && |f.quantity| > 0 && |f.expectedPrice| > 0
  {
  }

  /** Choosing a vegetable in the menu. */
  function SelectVegetable(f: Form, vegetable: string): (r: Form)
    ensures r.cropType == vegetable && !r.expanded
    ensures r.quantity == f.quantity && r.expectedPrice == f.expectedPrice
  {
    f.(cropType := vegetable, expanded := false)
  }

  /** The parsed field, or 0.0 when it does not parse. */
  function NumberOr0(text: string, parse: string -> Option<real>): (v: real)
    ensures parse(text).Some? ==> v == parse(text).value
    ensures parse(text).None? ==> v == 0.0
  {
    match parse(text)
    case Some(x) => x
    case None => 0.0
  }

  /** A `getPriceAdvice` request. */
  datatype AdviceRequest = AdviceRequest(cropType: string, quantity: real)

  /** Focusing the price field asks for advice only once a crop is chosen,
      with the quantity parsed or 0.0. */
  function OnPriceFocused(f: Form, parse: string -> Option<real>): (r: Option<AdviceRequest>)
    ensures r.Some? <==> f.cropType != []
    ensures r.Some? ==> r.value == AdviceRequest(f.cropType, NumberOr0(f.quantity, parse))
  {
    if f.cropType != [] then Some(AdviceRequest(f.cropType, NumberOr0(f.quantity, parse))) else None
  }

  /** Post Listing: the arguments handed to `postListing` (no images; the
      view-model supplies defaults), and the store it leaves. */
  function Post(m: FakeMarketRepository.Market, f: Form, parse: string -> Option<real>,
                id: string, now: int): (r: FarmerViewModel.PostRun)
    ensures r == FarmerViewModel.PostListing(m, f.cropType, NumberOr0(f.quantity, parse),
                                             NumberOr0(f.expectedPrice, parse), [], id, now)
    ensures r.market.listings[|m.listings|].images == FarmerViewModel.DefaultImages(f.cropType)
  {
    FarmerViewModel.PostListing(m, f.cropType, NumberOr0(f.quantity, parse),
                                NumberOr0(f.expectedPrice, parse), [], id, now)
  }

  /** Unparseable numbers are posted as zero. */
  lemma UnparseablePostsZero(m: FakeMarketRepository.Market, f: Form, parse: string -> Option<real>,
                             id: string, now: int)
    requires parse(f.quantity).None? && parse(f.expectedPrice).None?
    ensures var l := Post(m, f, parse, id, now).market.listings[|m.listings|];
            l.quantity == 0.0 && l.pricePerKg == 0.0 && l.cropName == f.cropType
  {
  }

  /** `getVegImage`: the crop drawable of the lower-cased name, without trimming. */
  function GetVegImage(name: string): (d: Drawable)
    ensures d != Logo <==> Lower(name) in CropNames
    ensures d != Logo ==> CropNameOf(d) == Some(Lower(name))
  {
    CropDrawable(Lower(name))
  }

  /** Every menu entry has its own picture. */
  lemma VegetablesHavePictures(i: nat)
    requires i < |Vegetables|
    ensures GetVegImage(Vegetables[i]) != Logo
  {
    LowerOfLowercase(Vegetables[i]);
  }

  /** A string without capital letters lower-cases to itself. */
  lemma LowerOfLowercase(s: string)
    requires forall i :: 0 <= i < |s| ==> !('A' <= s[i] <= 'Z')
    ensures Lower(s) == s
  {
  }

  /** For a name without surrounding whitespace, `getVegImage` agrees with the
      drawable `displayImage` falls back to. */
  lemma VegImageAgreesWithDisplay(l: Listing)
    requires l.images == []
    requires l.cropName == [] || (!IsSpace(l.cropName[0]) && !IsSpace(l.cropName[|l.cropName| - 1]))
    ensures DisplayImage(l) == Resource(GetVegImage(l.cropName))
  {
    TrimLowerCommute(l.cropName);
    TrimUnpadded(l.cropName);
  }

  /** Leading whitespace separates the two: " tomato" shows the logo in the
      form, but a listing so named is displayed with the tomato picture. */
  lemma PaddedNameDiffers(l: Listing)
    requires l.cropName == " tomato" && l.images == []
    ensures GetVegImage(l.cropName) == Logo
    ensures DisplayImage(l) == Resource(Tomato)
  {
    LowerOfLowercase(" tomato");
    assert " tomato"[1..] == "tomato";
    TrimUnpadded("tomato");
  }
}

=== FILE: driver_dashboard.dfy ===
/** The driver dashboard's derived view: the AVAILABLE-trip filter, what the
    trip area shows, and the accept-confirmation dialog. */
module DriverDashboard {
  import opened Common
  import opened Models
  import Screens
  import FakeMarketRepository
  import DriverViewModel

  /** `filter { it.status == AVAILABLE }`, keeping store order. */
  function AvailableTrips(ts: seq<Trip>): (r: seq<Trip>)
    ensures |r| <= |ts|
    ensures forall t :: t in r <==> t in ts && t.status == Available
    decreases |ts|
  {
    if ts == [] then []
    else if ts[0].status == Available then [ts[0]] + AvailableTrips(ts[1..])
    else AvailableTrips(ts[1..])
  }

  /** Filtering distributes over concatenation, so the filter keeps the
      relative order of the trips it keeps. */
  lemma {:induction false} AvailableTripsAppend(a: seq<Trip>, b: seq<Trip>)
    ensures AvailableTrips(a + b) == AvailableTrips(a) + AvailableTrips(b)
    decreases |a|
  {
    if a == [] {
      assert a + b == b;
    } else {
      assert (a + b)[0] == a[0] && (a + b)[1..] == a[1..] + b;
      AvailableTripsAppend(a[1..], b);
      if a[0].status == Available {
        assert [a[0]] + (AvailableTrips(a[1..]) + AvailableTrips(b))
            == ([a[0]] + AvailableTrips(a[1..])) + AvailableTrips(b);
      }
    }
  }

  /** A list of AVAILABLE trips passes the filter unchanged. */
  lemma {:induction false} AvailableTripsKeepsAll(ts: seq<Trip>)
    requires forall i :: 0 <= i < |ts| ==> ts[i].status == Available
    ensures AvailableTrips(ts) == ts
    decreases |ts|
  {
    if ts != [] {
      AvailableTripsKeepsAll(ts[1..]);
    }
  }

  /** What the trip area shows. */
  datatype TripArea =
    | GoOnlinePrompt
    | Spinner
    | NoTrips
    | TripList(trips: seq<Trip>)
    | ErrorText

  /** The trip area for a state of the view-model. */
  function Area(vm: DriverViewModel.DriverVm): (a: TripArea)
    ensures !vm.isOnline <==> a == GoOnlinePrompt
    ensures a.TripList? <==> vm.isOnline && vm.tripsState.Success? && AvailableTrips(vm.tripsState.data) != []
    ensures a.TripList? ==> a.trips == AvailableTrips(vm.tripsState.data)
    ensures a == Spinner <==> vm.isOnline && vm.tripsState.Loading?
    ensures a == ErrorText <==> vm.isOnline && vm.tripsState.Error?
    ensures a == NoTrips <==> vm.isOnline && vm.tripsState.Success?
                              && AvailableTrips(vm.tripsState.data) == []
  {
    if !vm.isOnline then GoOnlinePrompt
    else match vm.tripsState
         case Loading => Spinner
         case Success(ts) =>
           var available := AvailableTrips(ts);
           if available == [] then NoTrips else TripList(available)
         case Error(_) => ErrorText
  }

  /** Online with the trips loaded, a trip of the store is on screen exactly
      when it is AVAILABLE. */
  lemma AreaShowsAvailable(vm: DriverViewModel.DriverVm, t: Trip)
    requires vm.isOnline && vm.tripsState.Success?
    ensures (Area(vm).TripList? && t in Area(vm).trips) <==> t in vm.tripsState.data && t.status == Available
  {
  }

  /** Freshly started and online, the seeded store lists all five trips. */
  lemma SeededTripsListed()
    ensures Area(DriverViewModel.OnTrips(DriverViewModel.Initial, FakeMarketRepository.SeedTrips))
            == TripList(FakeMarketRepository.SeedTrips)
  {
    var ts := FakeMarketRepository.SeedTrips;
    assert forall i :: 0 <= i < |ts| ==> ts[i].status == Available;
    AvailableTripsKeepsAll(ts);
  }

  /** Once a trip is accepted and the store emits again, it is no longer
      offered, while every other AVAILABLE trip still is. */
  lemma AcceptedTripDropsOut(m: FakeMarketRepository.Market, tripId: string, t: Trip)
    ensures var after := DriverViewModel.AcceptTrip(m, tripId);
            (t in AvailableTrips(after.trips) <==> t in AvailableTrips(m.trips) && t.id != tripId)
  {
    var after := DriverViewModel.AcceptTrip(m, tripId);
    if t in AvailableTrips(after.trips) {
      var i :| 0 <= i < |after.trips| && after.trips[i] == t;
      assert m.trips[i].id != tripId;
    }
    if t in AvailableTrips(m.trips) && t.id != tripId {
      var i :| 0 <= i < |m.trips| && m.trips[i] == t;
      assert after.trips[i] == t;
    }
  }

  /** `showAcceptDialog`: the trip awaiting confirmation, if any. */
  datatype Dialog = Closed | Confirming(trip: Trip)

  /** The dialog's events. */
  datatype DialogEvent = CardAccept(trip: Trip) | Confirm | Dismiss

  /** The effects of one dialog event on the store and the navigation. */
  datatype DialogStep = DialogStep(dialog: Dialog, market: FakeMarketRepository.Market,
                                   navigateTo: Option<Screens.Screen>)

  /** Tapping Accept on a card opens the dialog for that trip; confirming
      accepts the trip, closes the dialog and opens ActiveTrip; dismissing or
      cancelling closes it and changes nothing else. */
  function OnDialog(d: Dialog, m: FakeMarketRepository.Market, e: DialogEvent): (s: DialogStep)
    ensures e.CardAccept? ==> s == DialogStep(Confirming(e.trip), m, None)
    ensures e == Dismiss ==> s == DialogStep(Closed, m, None)
    ensures e == Confirm && d.Confirming? ==>
              s.dialog == Closed && s.navigateTo == Some(Screens.ActiveTrip)
              && s.market == DriverViewModel.AcceptTrip(m, d.trip.id)
    ensures e == Confirm && d == Closed ==> s == DialogStep(Closed, m, None)
  {
    match e
    case CardAccept(t) => DialogStep(Confirming(t), m, None)
    case Dismiss => DialogStep(Closed, m, None)
    case Confirm =>
      match d
      case Closed => DialogStep(Closed, m, None)
      case Confirming(t) => DialogStep(Closed, DriverViewModel.AcceptTrip(m, t.id), Some(Screens.ActiveTrip))
  }

  /** Only a confirmation writes the store: opening and then dismissing the
      dialog leaves everything as it was. */
  lemma DismissWritesNothing(m: FakeMarketRepository.Market, t: Trip)
    ensures var shown := OnDialog(Closed, m, CardAccept(t));
            OnDialog(shown.dialog, shown.market, Dismiss) == DialogStep(Closed, m, None)
  {
  }
}

=== FILE: driver_view_model.dfy ===
/** `DriverViewModel`: the trip list state, the online switch, and the two
    trip commands. */
module DriverViewModel {
  import opened Common
  import opened Models
  import FakeMarketRepository

  datatype DriverVm = DriverVm(tripsState: UiState<seq<Trip>>, isOnline: bool)

  /** Before any emission: trips loading, driver online. */
  const Initial: DriverVm := DriverVm(Loading, true)

  /** A `getTrips` emission. */
  function OnTrips(vm: DriverVm, ts: seq<Trip>): (r: DriverVm)
    ensures r.tripsState == Success(ts) && r.isOnline == vm.isOnline
  {
    vm.(tripsState := Success(ts))
  }

  /** `toggleOnlineStatus` */
  function ToggleOnline(vm: DriverVm): (r: DriverVm)
    ensures r.isOnline != vm.isOnline && r.tripsState == vm.tripsState
  {
    vm.(isOnline := !vm.isOnline)
  }

  /** Toggling twice changes nothing. */
  lemma ToggleTwice(vm: DriverVm)
    ensures ToggleOnline(ToggleOnline(vm)) == vm
  {
  }

  /** `acceptTrip`: asks the store to mark the trip ACCEPTED. The name is a
      valid constant's, so the call never throws. */
  function AcceptTrip(m: FakeMarketRepository.Market, tripId: string): (r: FakeMarketRepository.Market)
    ensures FakeMarketRepository.UpdateTripStatus(m, tripId, TripStatusName(Accepted)) == Some(r)
    ensures forall i :: 0 <= i < |m.trips| && m.trips[i].id == tripId ==> r.trips[i].status == Accepted
  {
    FakeMarketRepository.UpdateTripStatus(m, tripId, TripStatusName(Accepted)).value
  }

  /** `completeTrip`: asks the store to mark the trip DELIVERED; never throws. */
  function CompleteTrip(m: FakeMarketRepository.Market, tripId: string): (r: FakeMarketRepository.Market)
    ensures FakeMarketRepository.UpdateTripStatus(m, tripId, TripStatusName(TripDelivered)) == Some(r)
    ensures forall i :: 0 <= i < |m.trips| && m.trips[i].id == tripId ==> r.trips[i].status == TripDelivered
  {
    FakeMarketRepository.UpdateTripStatus(m, tripId, TripStatusName(TripDelivered)).value
  }

  /** A trip can be completed without ever being accepted, and accepted again
      after it was delivered: the commands check no current status. */
  lemma CommandsIgnoreCurrentStatus(m: FakeMarketRepository.Market, tripId: string)
    ensures forall i :: 0 <= i < |m.trips| && m.trips[i].id == tripId ==>
              CompleteTrip(m, tripId).trips[i].status == TripDelivered
              && AcceptTrip(CompleteTrip(m, tripId), tripId).trips[i].status == Accepted
  {
  }
}

=== FILE: farmer_view_model.dfy ===
/** `FarmerViewModel`: the farmer's listing, order and price-advice states, the
    spoken advice and prompts, and the listing a farmer posts. */
module FarmerViewModel {
  import opened Common
  import opened Models
  import FakeMarketRepository
  import TtsManager

  /** The farmer every request is made for. */
  const FarmerId: string := "f1"

  datatype FarmerVm = FarmerVm(listingsState: UiState<seq<Listing>>,
                               ordersState: UiState<seq<Order>>,
                               aiAdviceState: Option<UiState<AiPriceAdvice>>)

  /** Before any emission: both lists loading, no advice requested. */
  const Initial: FarmerVm := FarmerVm(Loading, Loading, None)

  /** A `getListings` emission. */
  function OnListings(vm: FarmerVm, ls: seq<Listing>): (r: FarmerVm)
    ensures r.listingsState == Success(ls)
    ensures r.ordersState == vm.ordersState && r.aiAdviceState == vm.aiAdviceState
  {
    vm.(listingsState := Success(ls))
  }

  /** A `getOrdersForFarmer` emission. */
  function OnOrders(vm: FarmerVm, os: seq<Order>): (r: FarmerVm)
    ensures r.ordersState == Success(os)
    ensures r.listingsState == vm.listingsState && r.aiAdviceState == vm.aiAdviceState
  {
    vm.(ordersState := Success(os))
  }

  /** `loadData` against the store: the current listings and the orders asked
      for farmer "f1" arrive as `Success`. */
  function Loaded(vm: FarmerVm, m: FakeMarketRepository.Market, now: int): (r: FarmerVm)
    ensures r.listingsState == Success(m.listings)
    ensures r.ordersState == Success(FakeMarketRepository.OrdersForFarmer(FarmerId, now))
    ensures |r.ordersState.data| == 2
    ensures r.aiAdviceState == vm.aiAdviceState
  {
    OnOrders(OnListings(vm, m.listings), FakeMarketRepository.OrdersForFarmer(FarmerId, now))
  }

  /** The language the prompts are written in. */
  datatype Script = EnglishScript | KannadaScript

  /** Kannada text for "kn" and "Kannada"; English for every other value. */
  function ScriptFor(language: string): (s: Script)
    ensures s == KannadaScript <==> language == "kn" || language == "Kannada"
  {
    if language == "kn" || language == "Kannada" then KannadaScript else EnglishScript
  }

  /** Kannada text is always spoken with the Kannada locale requested; the
      converse fails for "kn-IN", which gets English text in the Kannada
      locale. */
  lemma ScriptAgreesWithLocale(language: string)
    ensures ScriptFor(language) == KannadaScript ==> TtsManager.LocaleFor(language) == TtsManager.KannadaIndia
    ensures ScriptFor("kn-IN") == EnglishScript && TtsManager.LocaleFor("kn-IN") == TtsManager.KannadaIndia
  {
  }

  /** The spoken advice. Prices are rendered by `show`, Kotlin's `Double`
      string template. */
  function AdviceText(advice: AiPriceAdvice, script: Script, show: real -> string): (t: string)
    ensures |advice.reasonText| <= |t| && t[|t| - |advice.reasonText|..] == advice.reasonText
    ensures script == EnglishScript ==> "AI Price Insight for your crops. " <= t
  {
    var body :=
      match script
      case KannadaScript =>
        "ನಿಮ್ಮ ಬೆಳೆಗಳಿಗೆ AI ಬೆಲೆ ಮಾಹಿತಿ. "
        + "ಪ್ರಸ್ತುತ ಮಾರುಕಟ್ಟೆ ಬೆಲೆ " + show(advice.currentPrice) + " ರೂಪಾಯಿಗಳು. "
        + "24 ಗಂಟೆಗಳಲ್ಲಿ ಅಂದಾಜು ಬೆಲೆ " + show(advice.predicted24h) + " ರೂಪಾಯಿಗಳು. "
        + "ನಮ್ಮ ಸಲಹೆ: " + advice.recommendation + ". "
      case EnglishScript =>
        "AI Price Insight for your crops. "
        + "Current market price is " + show(advice.currentPrice) + " rupees. "
        + "Predicted price in 24 hours is " + show(advice.predicted24h) + " rupees. "
        + "Our recommendation: " + advice.recommendation + ". ";
    var t := body + advice.reasonText;
    assert t[|t| - |advice.reasonText|..] == advice.reasonText;
    assert script == EnglishScript ==> "AI Price Insight for your crops. " <= body <= t;
    t
  }

  /** `speakAdvice`: the text in the stored language's script, handed to the
      speech manager with that language. */
  function SpeakAdvice(tts: TtsManager.Tts, advice: AiPriceAdvice, language: string,
                       show: real -> string, supported: TtsManager.Locale -> bool): (r: TtsManager.Tts)
    ensures tts.initialized ==> |r.events| == |tts.events| + 1
    ensures tts.initialized ==>
              r.events == tts.events + [TtsManager.Spoken(AdviceText(advice, ScriptFor(language), show),
                                                          TtsManager.EffectiveLocale(language, supported),
                                                          TtsManager.QueueAdd)]
    ensures r.initialized == tts.initialized
    ensures !tts.initialized ==> r.pending == Some(TtsManager.Request(AdviceText(advice, ScriptFor(language), show), language))
  {
    TtsManager.Speak(tts, AdviceText(advice, ScriptFor(language), show), language, supported)
  }

  /** Advice requested before the engine is ready is not lost: a successful
      init speaks it once, in the same words and locale as if the engine had
      been ready all along. */
  lemma AdviceSpokenAfterInit(tts: TtsManager.Tts, advice: AiPriceAdvice, language: string,
                              show: real -> string, supported: TtsManager.Locale -> bool)
    requires !tts.initialized
    ensures var ready := TtsManager.OnInit(SpeakAdvice(tts, advice, language, show, supported), true, supported);
            ready.initialized && ready.pending.None?
            && ready.events == SpeakAdvice(tts.(initialized := true), advice, language, show, supported).events
  {
  }

  /** `speakPrompt`: one of two ready-made prompts, by the stored language. */
  function SpeakPrompt(tts: TtsManager.Tts, englishPrompt: string, kannadaPrompt: string,
                       language: string, supported: TtsManager.Locale -> bool): (r: TtsManager.Tts)
    ensures tts.initialized ==>
              r.events == tts.events + [TtsManager.Spoken(
                if ScriptFor(language) == KannadaScript then kannadaPrompt else englishPrompt,
                TtsManager.EffectiveLocale(language, supported), TtsManager.QueueAdd)]
    ensures !tts.initialized ==> r.events == tts.events
  {
    var text := if language == "kn" || language == "Kannada" then kannadaPrompt else englishPrompt;
    TtsManager.Speak(tts, text, language, supported)
  }

  /** What one `getPriceAdvice` call does: the advice states it publishes, and
      whether it goes on to speak the advice. */
  datatype AdviceRun = AdviceRun(published: seq<Option<UiState<AiPriceAdvice>>>,
                                 spoken: Option<AiPriceAdvice>, after: FarmerVm)

  /** `getPriceAdvice`, given the result the repository call settled with:
      `Loading`, then `Success` followed by speaking, or `Error` with the
      failure's message and "Error" when it has none. */
  function GetPriceAdvice(vm: FarmerVm, result: KResult<AiPriceAdvice>): (run: AdviceRun)
    ensures |run.published| == 2 && run.published[0] == Some(Loading)
    ensures run.after.aiAdviceState == run.published[1] && run.published[1].Some?
    ensures run.published[1].value.Success? <==> result.Ok?
    ensures result.Ok? ==> run.published[1] == Some(Success(result.value))
                           && run.spoken == Some(result.value)
    ensures result.Failure? ==> run.published[1] == Some(Error(MessageOr(result.message, "Error")))
                                && run.spoken.None?
    ensures run.after.listingsState == vm.listingsState && run.after.ordersState == vm.ordersState
  {
    var terminal := Settle(result, "Error");
    var spoken := if result.Ok? then Some(result.value) else None;
    AdviceRun([Some(Loading), Some(terminal)], spoken, vm.(aiAdviceState := Some(terminal)))
  }

  /** Against the repository as implemented, advice always ends in `Success`
      with the sell-now recommendation, and that advice is spoken. */
  lemma PriceAdviceFromRepository(vm: FarmerVm, cropType: string, quantity: real)
    ensures var run := GetPriceAdvice(vm, FakeMarketRepository.GetAiPriceAdvice(cropType, quantity));
            run.after.aiAdviceState.value.Success?
            && run.after.aiAdviceState.value.data.recommendation == "SELL NOW"
            && run.spoken == Some(run.after.aiAdviceState.value.data)
  {
  }

  /** The crop names with a default photo, and their photos. */
  function DefaultImages(cropName: string): (images: seq<string>)
    ensures |images| <= 1
    ensures images != [] <==> Trim(Lower(cropName)) in ["onion", "potato", "tomato"]
    ensures Trim(Lower(cropName)) == "onion" ==> images == [FakeMarketRepository.OnionPhoto]
    ensures Trim(Lower(cropName)) == "potato" ==> images == [FakeMarketRepository.PotatoPhoto]
    ensures Trim(Lower(cropName)) == "tomato" ==> images == [FakeMarketRepository.TomatoPhoto]
  {
    DefaultImagesForKey(Trim(Lower(cropName)))
  }

  /** The default photos by normalised crop key. */
  function DefaultImagesForKey(key: string): (images: seq<string>)
    ensures |images| <= 1
    ensures images != [] <==> key in ["onion", "potato", "tomato"]
    ensures key == "onion" ==> images == [FakeMarketRepository.OnionPhoto]
    ensures key == "potato" ==> images == [FakeMarketRepository.PotatoPhoto]
    ensures key == "tomato" ==> images == [FakeMarketRepository.TomatoPhoto]
  {
    if key == "onion" then [FakeMarketRepository.OnionPhoto]
    else if key == "potato" then [FakeMarketRepository.PotatoPhoto]
    else if key == "tomato" then [FakeMarketRepository.TomatoPhoto]
    else []
  }

  /** A default photo is the one the seeded listing of the same crop shows. */
  lemma DefaultImagesMatchSeeds(now: int)
    ensures var seeds := FakeMarketRepository.SeedListings(now);
            |seeds| == 3
            && DefaultImages(seeds[0].cropName) == seeds[0].images
            && DefaultImages(seeds[1].cropName) == seeds[1].images
            && DefaultImages(seeds[2].cropName) == seeds[2].images
  {
    var seeds := FakeMarketRepository.SeedListings(now);
    assert seeds[0].cropName == "Tomato" && seeds[0].images == [FakeMarketRepository.TomatoPhoto];
    assert seeds[1].cropName == "Onion" && seeds[1].images == [FakeMarketRepository.OnionPhoto];
    assert seeds[2].cropName == "Potato" && seeds[2].images == [FakeMarketRepository.PotatoPhoto];
    SeedDefault("Tomato", "tomato", FakeMarketRepository.TomatoPhoto);
    SeedDefault("Onion", "onion", FakeMarketRepository.OnionPhoto);
    SeedDefault("Potato", "potato", FakeMarketRepository.PotatoPhoto);
  }

  /** Any spelling of a seeded crop ("onion" from the menu, " Onion ",
      "ONION", ...) gets the photo of the seeded listing of that crop. */
  lemma SameKeySeedPhoto(now: int, cropName: string)
    ensures var seeds := FakeMarketRepository.SeedListings(now);
            |seeds| == 3
            && (Trim(Lower(cropName)) == "tomato" ==> DefaultImages(cropName) == seeds[0].images)
            && (Trim(Lower(cropName)) == "onion" ==> DefaultImages(cropName) == seeds[1].images)
            && (Trim(Lower(cropName)) == "potato" ==> DefaultImages(cropName) == seeds[2].images)
  {
    var seeds := FakeMarketRepository.SeedListings(now);
    assert seeds[0].images == [FakeMarketRepository.TomatoPhoto];
    assert seeds[1].images == [FakeMarketRepository.OnionPhoto];
    assert seeds[2].images == [FakeMarketRepository.PotatoPhoto];
  }

  lemma SeedDefault(name: string, key: string, photo: string)
    requires (name, key, photo) in [("Tomato", "tomato", FakeMarketRepository.TomatoPhoto),
                                    ("Onion", "onion", FakeMarketRepository.OnionPhoto),
                                    ("Potato", "potato", FakeMarketRepository.PotatoPhoto)]
    ensures Trim(Lower(name)) == key
    ensures DefaultImages(name) == [photo]
  {
    NormalisesTo(name, key);
  }

  /** The images a posted listing carries: the supplied ones, or the crop's
      default photo when none were supplied. */
  function FinalImages(cropName: string, images: seq<string>): (r: seq<string>)
    ensures images != [] ==> r == images
    ensures images == [] ==> r == DefaultImages(cropName)
  {
    if images == [] then DefaultImages(cropName) else images
  }

  /** The listing `postListing` builds; `id` is the clock's millisecond string
      and `now` the harvest date. */
  function PostedListing(cropName: string, quantity: real, price: real, images: seq<string>,
                         id: string, now: int): (l: Listing)
    ensures l.farmerId == FarmerId && l.cropName == cropName
    ensures l.quantity == quantity && l.pricePerKg == price
    ensures l.status == Active && l.farmerTrustScore == 4.5
    ensures l.images == FinalImages(cropName, images)
  {
    NewListing(id, FarmerId, cropName, quantity, price, now, FinalImages(cropName, images))
  }

  /** Shown without a photo, a posted listing falls back to its crop drawable;
      with a default photo it shows that photo. */
  lemma PostedListingImage(cropName: string, quantity: real, price: real, id: string, now: int)
    ensures var l := PostedListing(cropName, quantity, price, [], id, now);
            var key := Trim(Lower(cropName));
            (key in ["onion", "potato", "tomato"] ==> DisplayImage(l) == Remote(DefaultImages(cropName)[0]))
            && (key !in ["onion", "potato", "tomato"] ==> DisplayImage(l) == Resource(CropDrawable(key)))
  {
  }

  /** The observable effects of `postListing`, in order. */
  datatype PostEffect = StoreWrite(listing: Listing) | ListingPosted

  datatype PostRun = PostRun(effects: seq<PostEffect>, market: FakeMarketRepository.Market)

  /** `postListing`: the listing is written, and only after `createListing`
      returns does `onListingPosted` run. */
  function PostListing(m: FakeMarketRepository.Market, cropName: string, quantity: real, price: real,
                       images: seq<string>, id: string, now: int): (r: PostRun)
    ensures |r.effects| == 2 && r.effects[1] == ListingPosted
    ensures r.effects[0] == StoreWrite(PostedListing(cropName, quantity, price, images, id, now))
    ensures |r.market.listings| == |m.listings| + 1
    ensures r.market.listings[..|m.listings|] == m.listings
    ensures r.market.listings[|m.listings|] == r.effects[0].listing
    ensures r.market.trips == m.trips
  {
    var l := PostedListing(cropName, quantity, price, images, id, now);
    PostRun([StoreWrite(l), ListingPosted], FakeMarketRepository.CreateListing(m, l).market)
  }
}

=== FILE: listing_detail.dfy ===
/** The listing-detail screen: the listing looked up by id, the quantity field,
    the total estimate, and the Place Order button. */
module ListingDetailScreen {
  import opened Common
  import opened Models
  import FakeMarketRepository
  import BuyerViewModel

  /** `find { it.id == listingId }`: the first listing with the id. */
  function FindListing(ls: seq<Listing>, listingId: string): (r: Option<Listing>)
    ensures r.None? <==> forall i :: 0 <= i < |ls| ==> ls[i].id != listingId
    ensures r.Some? ==> exists i :: 0 <= i < |ls| && ls[i] == r.value
                                    && forall j :: 0 <= j < i ==> ls[j].id != listingId
    ensures r.Some? ==> r.value.id == listingId
    decreases |ls|
  {
    if ls == [] then None
    else if ls[0].id == listingId then Some(ls[0])
    else
      var r := FindListing(ls[1..], listingId);
      if r.Some? then FirstMatchShift(ls, listingId, r.value); r else r
  }

  /** A first match in the tail, behind a non-matching head, is a first match
      of the whole list. */
  lemma FirstMatchShift(ls: seq<Listing>, listingId: string, v: Listing)
    requires ls != [] && ls[0].id != listingId
    requires exists i :: 0 <= i < |ls[1..]| && ls[1..][i] == v
                         && forall j :: 0 <= j < i ==> ls[1..][j].id != listingId
    ensures exists i :: 0 <= i < |ls| && ls[i] == v && forall j :: 0 <= j < i ==> ls[j].id != listingId
  {
    var i :| 0 <= i < |ls[1..]| && ls[1..][i] == v
             && forall j :: 0 <= j < i ==> ls[1..][j].id != listingId;
    assert ls[i + 1] == v;
    forall j | 0 <= j < i + 1
      ensures ls[j].id != listingId
    {
      if j > 0 { assert ls[j] == ls[1..][j - 1]; }
    }
  }

  /** The listing the screen shows: found in loaded data, otherwise none (the
      screen then shows a spinner). */
  function ShownListing(state: UiState<seq<Listing>>, listingId: string): (r: Option<Listing>)
    ensures !state.Success? ==> r.None?
    ensures state.Success? ==> r == FindListing(state.data, listingId)
  {
    match state
    case Success(ls) => FindListing(ls, listingId)
    case _ => None
  }

  /** When ids are unique, the shown listing is the one carrying the id. */
  lemma ShownIsTheListing(ls: seq<Listing>, k: nat)
    requires k < |ls|
    requires forall i, j :: 0 <= i < j < |ls| ==> ls[i].id != ls[j].id
    ensures ShownListing(Success(ls), ls[k].id) == Some(ls[k])
  {
    var r := FindListing(ls, ls[k].id);
    var i :| 0 <= i < |ls| && ls[i] == r.value && forall j :: 0 <= j < i ==> ls[j].id != ls[k].id;
    assert i == k;
  }

  /** The quantity field's initial text. */
  const InitialQuantity: string := "100"

  /** The quantity the field denotes: its parse, 0.0 when it does not parse. */
  function Quantity(text: string, parse: string -> Option<real>): (q: real)
    ensures parse(text).Some? ==> q == parse(text).value
    ensures parse(text).None? ==> q == 0.0
  {
    match parse(text)
    case Some(v) => v
    case None => 0.0
  }

  /** "Total Estimate". */
  function Estimate(text: string, listing: Listing, parse: string -> Option<real>): (e: real)
    ensures parse(text).None? ==> e == 0.0
    ensures parse(text).Some? ==> e == parse(text).value * listing.pricePerKg
  {
    Quantity(text, parse) * listing.pricePerKg
  }

  /** What Place Order does: the order it places (the store is not written)
      and the pop back. */
  datatype PlaceOrderStep = PlaceOrderStep(order: Order, market: FakeMarketRepository.Market,
                                           popsBack: bool)

  function OnPlaceOrder(m: FakeMarketRepository.Market, listing: Listing, text: string,
                        parse: string -> Option<real>, id: string, now: int): (s: PlaceOrderStep)
    ensures s.popsBack && s.market == m
    ensures s.order.listingId == listing.id && s.order.quantity == Quantity(text, parse)
    ensures s.order == BuyerViewModel.MakeOrder(listing, Quantity(text, parse), id, now)
  {
    var q := Quantity(text, parse);
    PlaceOrderStep(BuyerViewModel.MakeOrder(listing, q, id, now),
                   BuyerViewModel.PlaceOrder(m, listing, q, id, now), true)
  }

  /** The estimate shown is the total the placed order carries. */
  lemma EstimateIsOrderTotal(m: FakeMarketRepository.Market, listing: Listing, text: string,
                             parse: string -> Option<real>, id: string, now: int)
    ensures OnPlaceOrder(m, listing, text, parse, id, now).order.totalPrice
            == Estimate(text, listing, parse)
  {
  }
}

=== FILE: main_view_model.dfy ===
/** `MainViewModel`: the three observed values (language, role, logged-in
    user) and the commands that write the preference store and the session. */
module MainViewModel {
  import opened Common
  import opened Models
  import opened UserDao
  import UserPreferences
  import AuthRepository

  /** What the view-model reads from: the preference store and the users table. */
  datatype Sources = Sources(prefs: UserPreferences.Store, table: Table)

  /** The three `StateFlow` values at one instant. */
  datatype Snapshot = Snapshot(language: string, role: UserRole, loggedInUser: Option<User>)

  /** The `stateIn` initial values, visible before the first emission. */
  const Initial: Snapshot := Snapshot("English", NoRole, None)

  /** The values the three flows emit for the current sources; `None` when the
      role flow throws because the stored role is not a role's name. */
  function Observe(s: Sources): (r: Option<Snapshot>)
    ensures r.None? <==> UserPreferences.Role(s.prefs).None?
    ensures r.Some? ==> r.value.language == UserPreferences.Language(s.prefs)
    ensures r.Some? ==> Some(r.value.role) == UserPreferences.Role(s.prefs)
    ensures r.Some? ==> r.value.loggedInUser == LoggedInUser(s.table)
  {
    match UserPreferences.Role(s.prefs)
    case None => None
    case Some(role) =>
      Some(Snapshot(UserPreferences.Language(s.prefs), role, LoggedInUser(s.table)))
  }

  /** The initial values agree with what a fresh install emits: no saved
      preferences and no users. */
  lemma InitialMatchesFreshInstall()
    ensures Observe(Sources(map[], [])) == Some(Initial)
  {
  }

  /** `selectLanguage`: persists exactly the given language. */
  function SelectLanguage(s: Sources, language: string): (r: Sources)
    ensures UserPreferences.Language(r.prefs) == language
    ensures UserPreferences.Role(r.prefs) == UserPreferences.Role(s.prefs)
    ensures r.table == s.table
  {
    Sources(UserPreferences.SaveLanguage(s.prefs, language), s.table)
  }

  /** `selectRole`: persists exactly the given role. */
  function SelectRole(s: Sources, role: UserRole): (r: Sources)
    ensures UserPreferences.Role(r.prefs) == Some(role)
    ensures UserPreferences.Language(r.prefs) == UserPreferences.Language(s.prefs)
    ensures r.table == s.table
  {
    UserPreferences.SaveRoleReadBack(s.prefs, role);
    Sources(UserPreferences.SaveRole(s.prefs, role), s.table)
  }

  /** `logout`: the session is cleared, then the role is reset to NONE; the
      language stays. */
  function Logout(s: Sources): (r: Sources)
    ensures Observe(r) == Some(Snapshot(UserPreferences.Language(s.prefs), NoRole, None))
    ensures |r.table| == |s.table|
    ensures forall i :: 0 <= i < |s.table| ==> r.table[i].id == s.table[i].id
  {
    UserPreferences.SaveRoleReadBack(s.prefs, NoRole);
    Sources(UserPreferences.SaveRole(s.prefs, NoRole), AuthRepository.Logout(s.table))
  }
}

=== FILE: market_repository.dfy ===
/** `FakeMarketRepository`: the in-memory listing and trip stores with their
    seeds, and the fixed answers for prices, advice and orders. Each suspend
    call is one atomic step; `delay` is not modelled. */
module FakeMarketRepository {
  import opened Common
  import opened Models

  /** The two mutable stores. */
  datatype Market = Market(listings: seq<Listing>, trips: seq<Trip>)

  /** The photo URLs the seeds and the farmer's default images share. */
  const TomatoPhoto: string := "https://cdn.pixabay.com/photo/2011/03/16/16/01/tomatoes-5356_1280.jpg"
  const OnionPhoto: string := "https://cdn.pixabay.com/photo/2016/05/04/13/46/onion-1371434_1280.jpg"
  const PotatoPhoto: string := "https://cdn.pixabay.com/photo/2016/08/11/08/04/potatoes-1585060_1280.jpg"

  /** The three seeded listings, harvested at construction time `now`. */
  function SeedListings(now: int): seq<Listing>
  {
    [ NewListing("1", "f1", "Tomato", 500.0, 25.0, now, [TomatoPhoto]),
      NewListing("2", "f2", "Onion", 1200.0, 35.0, now, [OnionPhoto]),
      NewListing("3", "f3", "Potato", 800.0, 18.0, now, [PotatoPhoto]) ]
  }

  /** The five seeded trips, all offered to driver "d1". */
  const SeedTrips: seq<Trip> :=
    [ Trip("t1", "d1", "Mandya", "Mysuru", 500.0, 45.0, 1200.0, Available),
      Trip("t2", "d1", "Tumakuru", "Bengaluru", 1200.0, 70.0, 2500.0, Available),
      Trip("t3", "d1", "Hassan", "Mangaluru", 800.0, 170.0, 4500.0, Available),
      Trip("t4", "d1", "Chamarajanagar", "Mysuru", 600.0, 60.0, 1500.0, Available),
      Trip("t5", "d1", "Kolar", "Chennai", 1500.0, 250.0, 8000.0, Available) ]

  /** The repository as constructed. */
  function Seed(now: int): (m: Market)
    ensures |m.listings| == 3 && |m.trips| == 5
    ensures forall i :: 0 <= i < |m.listings| ==>
                          m.listings[i].status == Active && |m.listings[i].images| == 1
    ensures forall i :: 0 <= i < |m.trips| ==> m.trips[i].status == Available
    ensures forall i, j :: 0 <= i < j < |m.trips| ==> m.trips[i].id != m.trips[j].id
  {
    Market(SeedListings(now), SeedTrips)
  }

  // ---------------------------------------------------------------------------
  // Listings
  // ---------------------------------------------------------------------------

  /** What a suspend call returns beside the stores it leaves. */
  datatype Step = Step(result: KResult<()>, market: Market)

  /** `createListing`: the listing goes at the end, earlier listings keep their
      places, trips are untouched, and the call succeeds. */
  function CreateListing(m: Market, listing: Listing): (s: Step)
    ensures s.result == Ok(())
    ensures |s.market.listings| == |m.listings| + 1
    ensures s.market.listings[..|m.listings|] == m.listings
    ensures s.market.listings[|m.listings|] == listing
    ensures s.market.trips == m.trips
  {
    var ls := m.listings + [listing];
    assert ls[..|m.listings|] == m.listings;
    Step(Ok(()), Market(ls, m.trips))
  }

  /** `placeOrder`: succeeds and writes no store. */
  function PlaceOrder(m: Market, order: Order): (s: Step)
    ensures s.result.Ok? && s.market == m
  {
    Step(Ok(()), m)
  }

  // ---------------------------------------------------------------------------
  // Trips
  // ---------------------------------------------------------------------------

  predicate HasTrip(ts: seq<Trip>, id: string)
  {
    exists i :: 0 <= i < |ts| && ts[i].id == id
  }

  /** The `map` inside `updateTripStatus` once the status name has parsed:
      matching trips get the new status, everything else stays in place. */
  function SetTripStatus(ts: seq<Trip>, id: string, status: TripStatus): (r: seq<Trip>)
    ensures |r| == |ts|
    ensures forall i :: 0 <= i < |ts| && ts[i].id == id ==> r[i] == ts[i].(status := status)
    ensures forall i :: 0 <= i < |ts| && ts[i].id != id ==> r[i] == ts[i]
  {
    if ts == [] then []
    else [if ts[0].id == id then ts[0].(status := status) else ts[0]]
         + SetTripStatus(ts[1..], id, status)
  }

  /** `updateTripStatus`. `valueOf` runs only for a trip whose id matches, so an
      unknown status name throws (`None`, nothing written) exactly when some
      trip has the id; with no such trip the stores come back unchanged. */
  function UpdateTripStatus(m: Market, id: string, status: string): (r: Option<Market>)
    ensures r.None? <==> HasTrip(m.trips, id) && ParseTripStatus(status).None?
    ensures r.Some? ==> r.value.listings == m.listings && |r.value.trips| == |m.trips|
    ensures r.Some? ==> forall i :: 0 <= i < |m.trips| && m.trips[i].id != id ==>
                                      r.value.trips[i] == m.trips[i]
    ensures r.Some? ==> forall i :: 0 <= i < |m.trips| && m.trips[i].id == id ==>
                                      TripStatusName(r.value.trips[i].status) == status
                                      && r.value.trips[i] == m.trips[i].(status := r.value.trips[i].status)
  {
    match ParseTripStatus(status)
    case Some(s) => Some(m.(trips := SetTripStatus(m.trips, id, s)))
    case None => if HasTrip(m.trips, id) then None else Some(m)
  }

  /** An id no trip has leaves the stores as they were, whatever the name. */
  lemma UnknownTripUnchanged(m: Market, id: string, status: string)
    requires !HasTrip(m.trips, id)
    ensures UpdateTripStatus(m, id, status) == Some(m)
  {
    if ParseTripStatus(status).Some? {
      var r := UpdateTripStatus(m, id, status).value;
      assert r.trips == m.trips;
    }
  }

  /** Setting the same status twice is the same as setting it once. */
  lemma UpdateTripStatusIdempotent(m: Market, id: string, status: string)
    requires UpdateTripStatus(m, id, status).Some?
    ensures var once := UpdateTripStatus(m, id, status).value;
            UpdateTripStatus(once, id, status) == Some(once)
  {
    var once := UpdateTripStatus(m, id, status).value;
    var s := ParseTripStatus(status);
    if s.Some? {
      var twice := UpdateTripStatus(once, id, status).value;
      assert twice.trips == once.trips;
    }
  }

  /** The store enforces no lifecycle: an accepted trip can be accepted again,
      and can even be moved back to AVAILABLE. */
  lemma NoStatusGuard(m: Market, id: string)
    requires HasTrip(m.trips, id)
    ensures var accepted := UpdateTripStatus(m, id, "ACCEPTED");
            accepted.Some?
            && UpdateTripStatus(accepted.value, id, "ACCEPTED") == accepted
            && UpdateTripStatus(accepted.value, id, "AVAILABLE").Some?
            && forall i :: 0 <= i < |m.trips| && m.trips[i].id == id ==>
                 UpdateTripStatus(accepted.value, id, "AVAILABLE").value.trips[i].status == Available
  {
    UpdateTripStatusIdempotent(m, id, "ACCEPTED");
  }

  /** The trip ids in store order. */
  function TripIds(ts: seq<Trip>): (ids: seq<string>)
    ensures |ids| == |ts|
    ensures forall i :: 0 <= i < |ts| ==> ids[i] == ts[i].id
  {
    if ts == [] then [] else [ts[0].id] + TripIds(ts[1..])
  }

  // ---------------------------------------------------------------------------
  // Runs of writes
  // ---------------------------------------------------------------------------

  /** The three writes the view-models issue. */
  datatype Write =
    | Create(listing: Listing)
    | Place(order: Order)
    | SetStatus(tripId: string, status: string)

  /** One write; `None` when it throws. */
  function Apply(m: Market, w: Write): Option<Market>
  {
    match w
    case Create(l) => Some(CreateListing(m, l).market)
    case Place(o) => Some(PlaceOrder(m, o).market)
    case SetStatus(id, s) => UpdateTripStatus(m, id, s)
  }

  /** Writes in order, stopping at the first that throws. */
  function Run(m: Market, ws: seq<Write>): Option<Market>
    decreases |ws|
  {
    if ws == [] then Some(m)
    else match Apply(m, ws[0])
         case None => None
         case Some(m1) => Run(m1, ws[1..])
  }

  /** The listings created during a run, in order. */
  function Created(ws: seq<Write>): seq<Listing>
    decreases |ws|
  {
    if ws == [] then []
    else if ws[0].Create? then [ws[0].listing] + Created(ws[1..])
    else Created(ws[1..])
  }

  /** Over any sequence of writes, listings are append-only (exactly the created
      ones are added, in order) and the trip list keeps its ids and order. */
  lemma {:induction false} RunInvariant(m: Market, ws: seq<Write>)
    requires Run(m, ws).Some?
    ensures Run(m, ws).value.listings == m.listings + Created(ws)
    ensures TripIds(Run(m, ws).value.trips) == TripIds(m.trips)
    decreases |ws|
  {
    if ws != [] {
      var m1 := Apply(m, ws[0]).value;
      RunInvariant(m1, ws[1..]);
      if ws[0].Create? {
        assert m1.listings == m.listings + [ws[0].listing];
        assert m.listings + [ws[0].listing] + Created(ws[1..])
            == m.listings + ([ws[0].listing] + Created(ws[1..]));
      }
      assert TripIds(m1.trips) == TripIds(m.trips);
    }
  }

  // ---------------------------------------------------------------------------
  // Fixed answers
  // ---------------------------------------------------------------------------

  /** `getLivePrices`: the one emission of four crops. */
  const LivePrices: seq<Crop> :=
    [ Crop("c1", "Tomato", "Vegetable", 28.0, 5.2),
      Crop("c2", "Onion", "Vegetable", 42.0, -2.1),
      Crop("c3", "Potato", "Vegetable", 20.0, 1.5),
      Crop("c4", "Green Chili", "Vegetable", 65.0, 8.4) ]

  const AdviceReason: string :=
    "Price is expected to peak in 24h due to high demand in nearby Mandi, but will drop as new supply arrives from neighboring districts."

  /** `getAiPriceAdvice`: always succeeds with the same advice, to sell now
      because the price rises for a day and then falls below today's. */
  function GetAiPriceAdvice(cropType: string, quantity: real): (r: KResult<AiPriceAdvice>)
    ensures r.Ok?
    ensures r.value.recommendation == "SELL NOW"
    ensures r.value.predicted48h < r.value.currentPrice < r.value.predicted24h
    ensures 0.0 <= r.value.confidence <= 1.0
  {
    Ok(AiPriceAdvice(25.0, 27.5, 24.0, 0.92, "SELL NOW", AdviceReason))
  }

  /** The advice depends on neither the crop nor the quantity. */
  lemma AdviceIgnoresInputs(c1: string, q1: real, c2: string, q2: real)
    ensures GetAiPriceAdvice(c1, q1) == GetAiPriceAdvice(c2, q2)
  {
  }

  /** `getOrdersForFarmer`: two fixed orders for any farmer; `now` is the
      defaulted `timestamp`. */
  function OrdersForFarmer(farmerId: string, now: int): (os: seq<Order>)
    ensures |os| == 2
    ensures os[0].status == OrderReceived && os[1].status == PickedUp
    ensures forall i :: 0 <= i < |os| ==> os[i].totalPrice > 0.0 && os[i].timestamp == now
  {
    [ Order("o1", "1", "b1", Some("d1"), OrderReceived, 200.0, 5000.0, now),
      Order("o2", "2", "b2", Some("d1"), PickedUp, 500.0, 17500.0, now) ]
  }

  /** The farmer id is not consulted. */
  lemma OrdersForFarmerIgnoresId(a: string, b: string, now: int)
    ensures OrdersForFarmer(a, now) == OrdersForFarmer(b, now)
  {
  }

  /** `getOrdersForBuyer`: one order, carrying the requested buyer id. */
  function OrdersForBuyer(buyerId: string, now: int): (os: seq<Order>)
    ensures |os| == 1
    ensures os[0].buyerId == buyerId && os[0].status == OrderReceived
    ensures os[0].listingId == "1" && os[0].timestamp == now
  {
    [Order("o1", "1", buyerId, Some("d1"), OrderReceived, 200.0, 5000.0, now)]
  }

  /** Buyers see the same order, relabelled with their own id. */
  lemma OrdersForBuyerRelabel(a: string, b: string, now: int)
    ensures OrdersForBuyer(b, now) == [OrdersForBuyer(a, now)[0].(buyerId := b)]
  {
  }
}

=== FILE: models.dfy ===
/** The domain model: roles, statuses, listings, orders, trips, price advice,
    the user record, and the crop-name image lookup behind `Listing.displayImage`. */
module Models {
  import opened Common

  // ---------------------------------------------------------------------------
  // Enumerations and their `name` / `valueOf`
  // ---------------------------------------------------------------------------

  datatype UserRole = Farmer | Buyer | Driver | Trader | NoRole

  /** `UserRole.values()`, in declaration order. */
  const AllRoles: seq<UserRole> := [Farmer, Buyer, Driver, Trader, NoRole]

  function RoleName(r: UserRole): string
  {
    match r
    case Farmer => "FARMER"
    case Buyer => "BUYER"
    case Driver => "DRIVER"
    case Trader => "TRADER"
    case NoRole => "NONE"
  }

  /** `UserRole.valueOf(name)`; `None` stands for the IllegalArgumentException
      thrown for a string that is not a constant's name. */
  function ParseRole(name: string): (r: Option<UserRole>)
    ensures r.Some? ==> RoleName(r.value) == name
    ensures r.None? ==> forall role :: RoleName(role) != name
  {
    if name == "FARMER" then Some(Farmer)
    else if name == "BUYER" then Some(Buyer)
    else if name == "DRIVER" then Some(Driver)
    else if name == "TRADER" then Some(Trader)
    else if name == "NONE" then Some(NoRole)
    else None
  }

  /** A role stored by name parses back to itself. */
  lemma RoleNameRoundTrip(r: UserRole)
    ensures ParseRole(RoleName(r)) == Some(r)
  {
  }

  /** `UserRole` has exactly five distinct constants and every role is one of them. */
  lemma RolesEnumerated(r: UserRole)
    ensures |AllRoles| == 5
    ensures r in AllRoles
    ensures forall i, j :: 0 <= i < j < |AllRoles| ==> AllRoles[i] != AllRoles[j]
  {
  }

  datatype ListingStatus = Active | Sold | Expired

  const AllListingStatuses: seq<ListingStatus> := [Active, Sold, Expired]

  datatype OrderStatus = Listed | OrderReceived | TransportBooked | PickedUp | Delivered

  /** `OrderStatus.values()`, in declaration order. */
  const OrderStatuses: seq<OrderStatus> := [Listed, OrderReceived, TransportBooked, PickedUp, Delivered]

  function OrderStatusName(s: OrderStatus): string
  {
    match s
    case Listed => "LISTED"
    case OrderReceived => "ORDER_RECEIVED"
    case TransportBooked => "TRANSPORT_BOOKED"
    case PickedUp => "PICKED_UP"
    case Delivered => "DELIVERED"
  }

  /** `OrderStatus.ordinal`: the constant's index in `values()`. */
  function Ordinal(s: OrderStatus): (n: nat)
    ensures n < |OrderStatuses| && OrderStatuses[n] == s
  {
    match s
    case Listed => 0
    case OrderReceived => 1
    case TransportBooked => 2
    case PickedUp => 3
    case Delivered => 4
  }

  /** The ordinals order the statuses LISTED < ORDER_RECEIVED < TRANSPORT_BOOKED
      < PICKED_UP < DELIVERED, one index each. */
  lemma OrdinalsIndexValues()
    ensures |OrderStatuses| == 5
    ensures forall i :: 0 <= i < |OrderStatuses| ==> Ordinal(OrderStatuses[i]) == i
    ensures Ordinal(Listed) < Ordinal(OrderReceived) < Ordinal(TransportBooked)
            < Ordinal(PickedUp) < Ordinal(Delivered)
  {
  }

  datatype TripStatus = Available | Accepted | OnTheWay | TripDelivered

  const AllTripStatuses: seq<TripStatus> := [Available, Accepted, OnTheWay, TripDelivered]

  function TripStatusName(s: TripStatus): string
  {
    match s
    case Available => "AVAILABLE"
    case Accepted => "ACCEPTED"
    case OnTheWay => "ON_THE_WAY"
    case TripDelivered => "DELIVERED"
  }

  /** `TripStatus.valueOf(name)`; `None` stands for the exception. */
  function ParseTripStatus(name: string): (r: Option<TripStatus>)
    ensures r.Some? ==> TripStatusName(r.value) == name
    ensures r.None? ==> forall s :: TripStatusName(s) != name
  {
    if name == "AVAILABLE" then Some(Available)
    else if name == "ACCEPTED" then Some(Accepted)
    else if name == "ON_THE_WAY" then Some(OnTheWay)
    else if name == "DELIVERED" then Some(TripDelivered)
    else None
  }

  /** The trip and listing statuses are exactly the declared constants. */
  lemma StatusesEnumerated(t: TripStatus, l: ListingStatus)
    ensures |AllTripStatuses| == 4 && t in AllTripStatuses
    ensures |AllListingStatuses| == 3 && l in AllListingStatuses
    ensures ParseTripStatus(TripStatusName(t)) == Some(t)
  {
  }

  // ---------------------------------------------------------------------------
  // Records
  // ---------------------------------------------------------------------------

  datatype Crop = Crop(id: string, name: string, category: string,
                       currentMandiPrice: real, priceTrend: real)

  /** `harvestDate` is a `Date`, kept as its epoch milliseconds. */
  datatype Listing = Listing(id: string, farmerId: string, cropName: string,
                             quantity: real, pricePerKg: real, harvestDate: int,
                             images: seq<string>, status: ListingStatus,
                             farmerTrustScore: real)

  /** The `Listing` constructor with its two defaulted parameters left out. */
  function NewListing(id: string, farmerId: string, cropName: string, quantity: real,
                      pricePerKg: real, harvestDate: int, images: seq<string>): (l: Listing)
    ensures l.status == Active && l.farmerTrustScore == 4.5
    ensures l.id == id && l.farmerId == farmerId && l.cropName == cropName
    ensures l.quantity == quantity && l.pricePerKg == pricePerKg
    ensures l.harvestDate == harvestDate && l.images == images
  {
    Listing(id, farmerId, cropName, quantity, pricePerKg, harvestDate, images, Active, 4.5)
  }

  datatype Order = Order(id: string, listingId: string, buyerId: string,
                         driverId: Option<string>, status: OrderStatus,
                         quantity: real, totalPrice: real, timestamp: int)

  datatype AiPriceAdvice = AiPriceAdvice(currentPrice: real, predicted24h: real,
                                         predicted48h: real, confidence: real,
                                         recommendation: string, reasonText: string)

  datatype Trip = Trip(id: string, driverId: string, pickupLocation: string,
                       dropLocation: string, weight: real, distance: real,
                       earnings: real, status: TripStatus)

  /** A row of the `users` table; `id` is the primary key. */
  datatype User = User(id: string, name: string, phoneNumber: string, role: UserRole,
                       location: string, isLoggedIn: bool)

  /** The `User` constructor with its two defaulted parameters left out. */
  function NewUser(id: string, name: string, phoneNumber: string, role: UserRole): (u: User)
    ensures u.location == "" && !u.isLoggedIn
    ensures u.id == id && u.name == name && u.phoneNumber == phoneNumber && u.role == role
  {
    User(id, name, phoneNumber, role, "", false)
  }

  // ---------------------------------------------------------------------------
  // Crop images
  // ---------------------------------------------------------------------------

  /** The drawable resources a crop can be shown with; `Logo` is the fallback. */
  datatype Drawable = Cabbage | Cauliflower | Chilli | Capcicum | Carrot
                    | Onion | Tomato | Potato | Logo

  /** What `displayImage` yields: a remote URL or a bundled drawable. */
  datatype Image = Remote(url: string) | Resource(drawable: Drawable)

  /** The eight crop names that have a drawable (spelled as in the app). */
  const CropNames: seq<string> :=
    ["cabbage", "cauliflower", "chilli", "capcicum", "carrot", "onion", "tomato", "potato"]

  /** The crop name a drawable illustrates; the logo illustrates none. */
  function CropNameOf(d: Drawable): Option<string>
  {
    match d
    case Cabbage => Some("cabbage")
    case Cauliflower => Some("cauliflower")
    case Chilli => Some("chilli")
    case Capcicum => Some("capcicum")
    case Carrot => Some("carrot")
    case Onion => Some("onion")
    case Tomato => Some("tomato")
    case Potato => Some("potato")
    case Logo => None
  }

  /** The `when` table shared by `displayImage` and `getVegImage`: an exact match
      against the eight names, the logo otherwise. */
  function CropDrawable(key: string): (d: Drawable)
    ensures d != Logo <==> key in CropNames
    ensures d != Logo ==> CropNameOf(d) == Some(key)
    ensures d == Logo ==> forall e :: CropNameOf(e) != Some(key)
  {
    if key == "cabbage" then Cabbage
    else if key == "cauliflower" then Cauliflower
    else if key == "chilli" then Chilli
    else if key == "capcicum" then Capcicum
    else if key == "carrot" then Carrot
    else if key == "onion" then Onion
    else if key == "tomato" then Tomato
    else if key == "potato" then Potato
    else Logo
  }

  /** Every crop drawable is found again from its own name. */
  lemma CropDrawableRoundTrip(d: Drawable)
    requires d != Logo
    ensures CropNameOf(d).Some? && CropDrawable(CropNameOf(d).value) == d
  {
  }

  /** `Listing.displayImage`: the first image if there is one, otherwise the
      drawable for the lower-cased, trimmed crop name. */
  function DisplayImage(l: Listing): (img: Image)
    ensures |l.images| > 0 ==> img == Remote(l.images[0])
    ensures |l.images| == 0 ==> img.Resource?
    ensures |l.images| == 0 ==> (img.drawable != Logo <==> Trim(Lower(l.cropName)) in CropNames)
    ensures |l.images| == 0 && img.drawable != Logo ==> CropNameOf(img.drawable) == Some(Trim(Lower(l.cropName)))
  {
    if |l.images| > 0 then Remote(l.images[0])
    else Resource(CropDrawable(Trim(Lower(l.cropName))))
  }
}

=== FILE: nav_graph.dfy ===
/** `NavGraph`: the start-destination decision, the dashboards reached after a
    successful login or registration, the role argument of the auth routes,
    and the two selection steps before login. */
module NavGraph {
  import opened Common
  import opened Models
  import opened Screens
  import UserPreferences
  import MainViewModel

  /** The dashboard for a role, or none for NONE. */
  function RoleDashboard(role: UserRole): Option<Screen>
  {
    match role
    case Farmer => Some(FarmerDashboard)
    case Buyer => Some(BuyerDashboard)
    case Driver => Some(DriverDashboard)
    case Trader => Some(TraderDashboard)
    case NoRole => None
  }

  /** The four dashboards are distinct, one per role. */
  lemma RoleDashboardInjective(a: UserRole, b: UserRole)
    requires RoleDashboard(a).Some? && RoleDashboard(a) == RoleDashboard(b)
    ensures a == b
  {
  }

  /** `startDestination`: LanguageSelection without a logged-in user; otherwise
      the dashboard of the preference role (the user's own stored role is not
      consulted), LanguageSelection for NONE. */
  function StartDestination(loggedInUser: Option<User>, selectedRole: UserRole): (s: Screen)
    ensures loggedInUser.None? ==> s == LanguageSelection
    ensures loggedInUser.Some? && selectedRole != NoRole ==> Some(s) == RoleDashboard(selectedRole)
    ensures loggedInUser.Some? && selectedRole == NoRole ==> s == LanguageSelection
  {
    if loggedInUser.None? then LanguageSelection
    else if selectedRole == Farmer then FarmerDashboard
    else if selectedRole == Buyer then BuyerDashboard
    else if selectedRole == Driver then DriverDashboard
    else if selectedRole == Trader then TraderDashboard
    else LanguageSelection
  }

  /** Which user is logged in matters only through its presence. */
  lemma StartIgnoresStoredRole(u: User, v: User, selectedRole: UserRole)
    ensures StartDestination(Some(u), selectedRole) == StartDestination(Some(v), selectedRole)
  {
  }

  /** The start destination for what the main view-model currently observes. */
  function StartFor(snapshot: MainViewModel.Snapshot): Screen
  {
    StartDestination(snapshot.loggedInUser, snapshot.role)
  }

  /** Before the first emission the graph starts at LanguageSelection. */
  lemma StartBeforeFirstEmission()
    ensures StartFor(MainViewModel.Initial) == LanguageSelection
  {
  }

  /** After logout the next start is LanguageSelection whatever the language. */
  lemma StartAfterLogout(s: MainViewModel.Sources)
    ensures MainViewModel.Observe(MainViewModel.Logout(s)).Some?
    ensures StartFor(MainViewModel.Observe(MainViewModel.Logout(s)).value) == LanguageSelection
  {
  }

  /** The `onLoginSuccess` / `onRegisterSuccess` target: the route role's
      dashboard, BuyerDashboard for NONE. */
  function AfterAuthDestination(role: UserRole): (s: Screen)
    ensures role != NoRole ==> Some(s) == RoleDashboard(role)
    ensures role == NoRole ==> s == BuyerDashboard
  {
    match role
    case Farmer => FarmerDashboard
    case Buyer => BuyerDashboard
    case Driver => DriverDashboard
    case Trader => TraderDashboard
    case NoRole => BuyerDashboard
  }

  /** With a logged-in user and a role chosen, starting afresh lands where a
      successful login with that role navigates. */
  lemma StartAgreesWithAfterAuth(u: User, role: UserRole)
    requires role != NoRole
    ensures StartDestination(Some(u), role) == AfterAuthDestination(role)
  {
  }

  /** The `role` argument of the login and register routes: BUYER's name when
      missing, then `UserRole.valueOf`, which throws (`None`) for other names. */
  function RoleArgument(arg: Option<string>): (r: Option<UserRole>)
    ensures arg.None? ==> r == Some(Buyer)
    ensures arg.Some? && r.Some? ==> RoleName(r.value) == arg.value
    ensures arg.Some? && r.None? ==> forall role :: RoleName(role) != arg.value
  {
    ParseRole(ValueOr(arg, RoleName(Buyer)))
  }

  /** The route arguments a path gives the Login destination. */
  function LoginArgument(path: string): Option<string>
  {
    MatchArg(TemplateOf(Login), path)
  }

  /** `onLanguageSelected`: the language is saved and the graph moves to
      RoleSelection. */
  function OnLanguageSelected(s: MainViewModel.Sources, language: string): (r: (MainViewModel.Sources, Screen))
    ensures UserPreferences.Language(r.0.prefs) == language
    ensures r.1 == RoleSelection
  {
    (MainViewModel.SelectLanguage(s, language), RoleSelection)
  }

  /** `onRoleSelected`: the role is saved and the graph moves to `login/<ROLE>`. */
  function OnRoleSelected(s: MainViewModel.Sources, role: UserRole): (r: (MainViewModel.Sources, string))
    ensures UserPreferences.Role(r.0.prefs) == Some(role)
    ensures r.1 == LoginRoute(RoleName(role))
  {
    (MainViewModel.SelectRole(s, role), LoginRoute(RoleName(role)))
  }

  /** Choosing a role and then logging in successfully lands on that role's
      dashboard: the path carries the role's name, the Login destination
      parses it back, and the success target follows it. */
  lemma RoleSelectionReachesDashboard(s: MainViewModel.Sources, role: UserRole)
    ensures var path := OnRoleSelected(s, role).1;
            RoleArgument(LoginArgument(path)) == Some(role)
            && AfterAuthDestination(role) == (if role == NoRole then BuyerDashboard
                                              else RoleDashboard(role).value)
  {
    var name := RoleName(role);
    assert IsPathArg(name) by {
      match role
      case Farmer => assert name == "FARMER";
      case Buyer => assert name == "BUYER";
      case Driver => assert name == "DRIVER";
      case Trader => assert name == "TRADER";
      case NoRole => assert name == "NONE";
    }
    RoleNameRoundTrip(role);
  }

  /** The route arguments a path gives the Register destination. */
  function RegisterArgument(path: string): Option<string>
  {
    MatchArg(TemplateOf(Register), path)
  }

  /** `onNavigateToRegister` and `onNavigateToLogin` pass the raw role argument
      along: moving between the two forms keeps the role. */
  lemma AuthFormsKeepRole(roleName: string)
    requires IsPathArg(roleName)
    ensures RoleArgument(RegisterArgument(RegisterRoute(roleName))) == RoleArgument(Some(roleName))
    ensures RoleArgument(LoginArgument(LoginRoute(roleName))) == RoleArgument(Some(roleName))
  {
  }

  /** The `listingId` argument of the detail route; "" when missing. */
  function ListingIdArgument(arg: Option<string>): (id: string)
    ensures arg.Some? ==> id == arg.value
    ensures arg.None? ==> id == ""
  {
    ValueOr(arg, "")
  }

  /** The listing id the detail destination receives for a path. */
  function ListingDetailArgument(path: string): (id: string)
    ensures MatchArg(TemplateOf(ListingDetail), path).Some? ==> id == MatchArg(TemplateOf(ListingDetail), path).value
    ensures MatchArg(TemplateOf(ListingDetail), path).Some? ==> path == "listing_detail/" + id
    ensures MatchArg(TemplateOf(ListingDetail), path).None? ==> id == ""
  {
    ListingIdArgument(MatchArg(TemplateOf(ListingDetail), path))
  }
}

=== FILE: order_timeline.dfy ===
/** The farmer's order-tracking timeline: one step per order status, with the
    completed / current / last flags, and the Book Transport condition. */
module OrderTimeline {
  import opened Common
  import opened Models

  /** One `TimelineItem`. */
  datatype Step = Step(title: string, isCompleted: bool, isCurrent: bool, isLast: bool)

  /** A status name as a title: underscores become spaces. */
  function Title(s: OrderStatus): (t: string)
    ensures |t| == |OrderStatusName(s)| && '_' !in t
    ensures forall i :: 0 <= i < |t| ==>
              t[i] == (if OrderStatusName(s)[i] == '_' then ' ' else OrderStatusName(s)[i])
  {
    ReplaceChar(OrderStatusName(s), '_', ' ')
  }

  /** The timeline for the current status, one step per `OrderStatus.values()`
      entry, in order. */
  function Timeline(current: OrderStatus): (steps: seq<Step>)
    ensures |steps| == |OrderStatuses|
    ensures forall i :: 0 <= i < |steps| ==>
              steps[i].title == Title(OrderStatuses[i])
              && (steps[i].isCompleted <==> i <= Ordinal(current))
              && (steps[i].isCurrent <==> i == Ordinal(current))
              && (steps[i].isLast <==> i == |steps| - 1)
  {
    seq(|OrderStatuses|, i requires 0 <= i < |OrderStatuses| =>
      Step(Title(OrderStatuses[i]), i <= Ordinal(current), i == Ordinal(current),
           i == |OrderStatuses| - 1))
  }

  /** Completed steps form a prefix of the timeline. */
  lemma CompletedPrefix(current: OrderStatus, i: nat, j: nat)
    requires i < j < |OrderStatuses|
    ensures Timeline(current)[j].isCompleted ==> Timeline(current)[i].isCompleted
  {
  }

  /** Exactly one step is current: it is completed and it is titled with the
      current status. */
  lemma OneCurrentStep(current: OrderStatus)
    ensures var steps := Timeline(current);
            var k := Ordinal(current);
            k < |steps| && steps[k].isCurrent && steps[k].isCompleted
            && steps[k].title == Title(current)
            && forall i :: 0 <= i < |steps| && steps[i].isCurrent ==> i == k
  {
  }

  /** Exactly one step is the last. */
  lemma OneLastStep(current: OrderStatus)
    ensures var steps := Timeline(current);
            steps[|steps| - 1].isLast
            && forall i :: 0 <= i < |steps| - 1 ==> !steps[i].isLast
  {
  }

  /** The status the tracking screen shows, fixed in the screen. */
  const ScreenStatus: OrderStatus := TransportBooked

  /** Book Transport is offered only while the order is just received. */
  predicate BookTransportOffered(current: OrderStatus)
  {
    current == OrderReceived
  }

  /** Book Transport is offered exactly at ORDER_RECEIVED, the step after
      LISTED, and so never on the screen as written. */
  lemma BookTransportWhen(current: OrderStatus)
    ensures BookTransportOffered(current) <==> Ordinal(current) == 1
    ensures !BookTransportOffered(ScreenStatus)
  {
  }
}

=== FILE: screens.dfy ===
/** `Screen`: the navigation destinations, their route templates, and the
    `createRoute` builders of the three parameterised ones. */
module Screens {
  import opened Common

  datatype Screen =
    | LanguageSelection | RoleSelection | Login | Register
    | FarmerDashboard | CreateListing | FarmerOrderStatus | TransportBooking | FarmerEarnings
    | BuyerDashboard | BrowseListings | ListingDetail | BuyerOrderTracking
    | DriverDashboard | ActiveTrip | DriverEarnings
    | TraderDashboard

  /** A route template: a fixed path, or a prefix followed by one `{argument}`. */
  datatype Template = Fixed(path: string) | WithArg(prefix: string, argName: string)

  function TemplateOf(s: Screen): Template
  {
    match s
    case LanguageSelection => Fixed("language_selection")
    case RoleSelection => Fixed("role_selection")
    case Login => WithArg("login/", "role")
    case Register => WithArg("register/", "role")
    case FarmerDashboard => Fixed("farmer_dashboard")
    case CreateListing => Fixed("create_listing")
    case FarmerOrderStatus => Fixed("farmer_order_status")
    case TransportBooking => Fixed("transport_booking")
    case FarmerEarnings => Fixed("farmer_earnings")
    case BuyerDashboard => Fixed("buyer_dashboard")
    case BrowseListings => Fixed("browse_listings")
    case ListingDetail => WithArg("listing_detail/", "listingId")
    case BuyerOrderTracking => Fixed("buyer_order_tracking")
    case DriverDashboard => Fixed("driver_dashboard")
    case ActiveTrip => Fixed("active_trip")
    case DriverEarnings => Fixed("driver_earnings")
    case TraderDashboard => Fixed("trader_dashboard")
  }

  /** The template as the string the navigation graph registers. */
  function Render(t: Template): string
  {
    match t
    case Fixed(p) => p
    case WithArg(p, a) => p + "{" + a + "}"
  }

  /** `Screen.route` */
  function Route(s: Screen): string
  {
    Render(TemplateOf(s))
  }

  /** A template with its `{argument}` replaced by a value. */
  function Fill(t: Template, value: string): string
    requires t.WithArg?
  {
    t.prefix + value
  }

  /** How the navigation graph matches a concrete path against a template: the
      prefix, then a non-empty argument without `/`. */
  function MatchArg(t: Template, path: string): (r: Option<string>)
    ensures r.Some? ==> t.WithArg? && path == t.prefix + r.value
  {
    match t
    case Fixed(_) => None
    case WithArg(p, _) =>
      if |p| < |path| && path[..|p|] == p && '/' !in path[|p|..] then
        assert path == p + path[|p|..];
        Some(path[|p|..])
      else None
  }

  /** A value the graph can carry as a path argument. */
  predicate IsPathArg(v: string)
  {
    v != [] && '/' !in v
  }

  /** `Login.createRoute(role)` */
  function LoginRoute(role: string): (path: string)
    ensures path == Fill(TemplateOf(Login), role)
    ensures IsPathArg(role) ==> MatchArg(TemplateOf(Login), path) == Some(role)
  {
    var path := "login/" + role;
    assert path[..|"login/"|] == "login/" && path[|"login/"|..] == role;
    path
  }

  /** `Register.createRoute(role)` */
  function RegisterRoute(role: string): (path: string)
    ensures path == Fill(TemplateOf(Register), role)
    ensures IsPathArg(role) ==> MatchArg(TemplateOf(Register), path) == Some(role)
  {
    var path := "register/" + role;
    assert path[..|"register/"|] == "register/" && path[|"register/"|..] == role;
    path
  }

  /** `ListingDetail.createRoute(listingId)` */
  function ListingDetailRoute(listingId: string): (path: string)
    ensures path == Fill(TemplateOf(ListingDetail), listingId)
    ensures IsPathArg(listingId) ==> MatchArg(TemplateOf(ListingDetail), path) == Some(listingId)
  {
    var path := "listing_detail/" + listingId;
    assert path[..|"listing_detail/"|] == "listing_detail/" && path[|"listing_detail/"|..] == listingId;
    path
  }

  /** The screen whose template is exactly this string, if any. */
  function ScreenOfRoute(route: string): (r: Option<Screen>)
  {
    if route == "language_selection" then Some(LanguageSelection)
    else if route == "role_selection" then Some(RoleSelection)
    else if route == "login/{role}" then Some(Login)
    else if route == "register/{role}" then Some(Register)
    else if route == "farmer_dashboard" then Some(FarmerDashboard)
    else if route == "create_listing" then Some(CreateListing)
    else if route == "farmer_order_status" then Some(FarmerOrderStatus)
    else if route == "transport_booking" then Some(TransportBooking)
    else if route == "farmer_earnings" then Some(FarmerEarnings)
    else if route == "buyer_dashboard" then Some(BuyerDashboard)
    else if route == "browse_listings" then Some(BrowseListings)
    else if route == "listing_detail/{listingId}" then Some(ListingDetail)
    else if route == "buyer_order_tracking" then Some(BuyerOrderTracking)
    else if route == "driver_dashboard" then Some(DriverDashboard)
    else if route == "active_trip" then Some(ActiveTrip)
    else if route == "driver_earnings" then Some(DriverEarnings)
    else if route == "trader_dashboard" then Some(TraderDashboard)
    else None
  }

  /** The round trip for the screens before login. */
  lemma EntryRoutesRoundTrip(s: Screen)
    requires s.LanguageSelection? || s.RoleSelection? || s.Login? || s.Register?
    ensures ScreenOfRoute(Route(s)) == Some(s)
  {
    if s.Login? {
      assert Route(s) == "login/{role}";
    } else if s.Register? {
      assert Route(s) == "register/{role}";
    }
  }

  /** The round trip for the farmer's screens. */
  lemma FarmerRoutesRoundTrip(s: Screen)
    requires s.FarmerDashboard? || s.CreateListing? || s.FarmerOrderStatus?
             || s.TransportBooking? || s.FarmerEarnings?
    ensures ScreenOfRoute(Route(s)) == Some(s)
  {
  }

  /** The round trip for the buyer's screens. */
  lemma BuyerRoutesRoundTrip(s: Screen)
    requires s.BuyerDashboard? || s.BrowseListings? || s.ListingDetail? || s.BuyerOrderTracking?
    ensures ScreenOfRoute(Route(s)) == Some(s)
  {
    if s.ListingDetail? {
      assert Route(s) == "listing_detail/{listingId}";
    }
  }

  /** The round trip for the driver's screens. */
  lemma DriverRoutesRoundTrip(s: Screen)
    requires s.DriverDashboard? || s.ActiveTrip? || s.DriverEarnings?
    ensures ScreenOfRoute(Route(s)) == Some(s)
  {
  }

  /** The round trip for the trader's screen. */
  lemma TraderRouteRoundTrip()
    ensures ScreenOfRoute(Route(TraderDashboard)) == Some(TraderDashboard)
  {
  }

  /** Every route string leads back to its own screen. */
  lemma RouteRoundTrip(s: Screen)
    ensures ScreenOfRoute(Route(s)) == Some(s)
  {
    if s.LanguageSelection? || s.RoleSelection? || s.Login? || s.Register? {
      EntryRoutesRoundTrip(s);
    } else if s.FarmerDashboard? || s.CreateListing? || s.FarmerOrderStatus?
              || s.TransportBooking? || s.FarmerEarnings? {
      FarmerRoutesRoundTrip(s);
    } else if s.BuyerDashboard? || s.BrowseListings? || s.ListingDetail? || s.BuyerOrderTracking? {
      BuyerRoutesRoundTrip(s);
    } else if s.DriverDashboard? || s.ActiveTrip? || s.DriverEarnings? {
      DriverRoutesRoundTrip(s);
    } else {
      TraderRouteRoundTrip();
    }
  }

  /** No two screens share a route template. */
  lemma RoutesDistinct(a: Screen, b: Screen)
    requires a != b
    ensures Route(a) != Route(b)
  {
    RouteRoundTrip(a);
    RouteRoundTrip(b);
  }
}

=== FILE: trader_dashboard.dfy ===
/** The trader dashboard: the tab row, the reversed Selling list, the Buy Now
    route, and the price-edit dialog of the Update tab. */
module TraderDashboardScreen {
  import opened Common
  import opened Models
  import Screens
  import FakeMarketRepository
  import BuyerViewModel
  import NavGraph
  import ListingDetailScreen

  datatype Tab = Buying | Selling | Transport | Update

  /** The tab a `selectedTab` index shows; indices outside 0-3 show none. */
  function TabAt(i: int): (t: Option<Tab>)
    ensures t.Some? <==> 0 <= i < 4
  {
    if i == 0 then Some(Buying)
    else if i == 1 then Some(Selling)
    else if i == 2 then Some(Transport)
    else if i == 3 then Some(Update)
    else None
  }

  /** A tab's position in the row. */
  function TabIndex(t: Tab): (i: nat)
    ensures i < 4
  {
    match t
    case Buying => 0
    case Selling => 1
    case Transport => 2
    case Update => 3
  }

  /** The row and the `when` agree, in both directions. */
  lemma TabsRoundTrip(t: Tab, i: int)
    ensures TabAt(TabIndex(t)) == Some(t)
    ensures TabAt(i).Some? ==> TabIndex(TabAt(i).value) == i
  {
  }

  /** `reversed()` */
  function Reverse(ls: seq<Listing>): (r: seq<Listing>)
    ensures |r| == |ls|
    ensures forall i :: 0 <= i < |ls| ==> r[i] == ls[|ls| - 1 - i]
    decreases |ls|
  {
    if ls == [] then [] else Reverse(ls[1..]) + [ls[0]]
  }

  /** Reversing is its own inverse. */
  lemma ReverseTwice(ls: seq<Listing>)
    ensures Reverse(Reverse(ls)) == ls
  {
  }

  /** The Selling tab's list for a listings state; none unless loaded. */
  function SellingList(state: UiState<seq<Listing>>): (r: Option<seq<Listing>>)
    ensures r.Some? <==> state.Success?
    ensures r.Some? ==> |r.value| == |state.data|
    ensures r.Some? ==> forall i :: 0 <= i < |r.value| ==> r.value[i] == state.data[|state.data| - 1 - i]
    ensures r.Some? ==> multiset(r.value) == multiset(state.data)
  {
    match state
    case Success(ls) =>
      ReverseSameElements(ls);
      Some(Reverse(ls))
    case _ => None
  }

  /** Reversing keeps every element, with its multiplicity. */
  lemma {:induction false} ReverseSameElements(ls: seq<Listing>)
    ensures multiset(Reverse(ls)) == multiset(ls)
    decreases |ls|
  {
    if ls != [] {
      ReverseSameElements(ls[1..]);
      assert ls == [ls[0]] + ls[1..];
    }
  }

  /** The Selling tab shows the newest listing first: after `createListing`
      the new listing heads the list, followed by the earlier list. */
  lemma NewestFirst(m: FakeMarketRepository.Market, l: Listing)
    ensures var after := FakeMarketRepository.CreateListing(m, l).market;
            SellingList(Success(after.listings)) == Some([l] + Reverse(m.listings))
  {
    var after := FakeMarketRepository.CreateListing(m, l).market;
    var xs := m.listings + [l];
    assert after.listings == xs;
    var expected := [l] + Reverse(m.listings);
    forall i | 0 <= i < |xs|
      ensures Reverse(xs)[i] == expected[i]
    {
      if i > 0 {
        assert xs[|xs| - 1 - i] == m.listings[|m.listings| - 1 - (i - 1)];
      }
    }
    assert Reverse(xs) == expected;
  }

  /** Buy Now on a listing card opens that listing's detail route, whose
      argument is the listing's id. */
  function BuyNowRoute(listing: Listing): (path: string)
    ensures path == "listing_detail/" + listing.id
    ensures Screens.IsPathArg(listing.id) ==> NavGraph.ListingDetailArgument(path) == listing.id
  {
    Screens.ListingDetailRoute(listing.id)
  }

  /** Buy Now leads to a detail screen that shows the very listing tapped,
      when listing ids are unique and usable as a path segment. */
  lemma BuyNowShowsListing(ls: seq<Listing>, k: nat)
    requires k < |ls|
    requires forall i, j :: 0 <= i < j < |ls| ==> ls[i].id != ls[j].id
    requires Screens.IsPathArg(ls[k].id)
    ensures var id := NavGraph.ListingDetailArgument(BuyNowRoute(ls[k]));
            id == ls[k].id && ListingDetailScreen.ShownListing(Success(ls), id) == Some(ls[k])
  {
    ListingDetailScreen.ShownIsTheListing(ls, k);
  }

  /** `showEditDialog` with the dialog's `newPrice` text. */
  datatype EditDialog = Closed | Editing(listing: Listing, text: string)

  datatype EditEvent = EditPrice(listing: Listing) | TypePrice(text: string) | ConfirmUpdate | Cancel

  /** One dialog event: the new dialog state and the update it requests. */
  datatype EditStep = EditStep(dialog: EditDialog, request: Option<BuyerViewModel.PriceUpdate>)

  /** Edit Price opens the dialog prefilled with the listing's price, rendered
      by `show`; Update with a parseable text requests that price for the
      listing and closes; Update with an unparseable text does nothing;
      Cancel and dismissing close without a request. */
  function OnEdit(d: EditDialog, e: EditEvent, parse: string -> Option<real>,
                  show: real -> string): (s: EditStep)
    ensures e.EditPrice? ==> s == EditStep(Editing(e.listing, show(e.listing.pricePerKg)), None)
    ensures e.TypePrice? ==> s.request.None?
                             && s.dialog == (if d.Editing? then d.(text := e.text) else d)
    ensures e == Cancel ==> s == EditStep(Closed, None)
    ensures e == ConfirmUpdate && d.Editing? && parse(d.text).Some? ==>
              s == EditStep(Closed, Some(BuyerViewModel.UpdateListingPrice(d.listing.id, parse(d.text).value)))
    ensures e == ConfirmUpdate && (d == Closed || parse(d.text).None?) ==> s == EditStep(d, None)
  {
    match e
    case EditPrice(l) => EditStep(Editing(l, show(l.pricePerKg)), None)
    case TypePrice(t) => EditStep(if d.Editing? then d.(text := t) else d, None)
    case Cancel => EditStep(Closed, None)
    case ConfirmUpdate =>
      if d.Editing? && parse(d.text).Some? then
        EditStep(Closed, Some(BuyerViewModel.UpdateListingPrice(d.listing.id, parse(d.text).value)))
      else EditStep(d, None)
  }

  /** Opening the dialog and confirming straight away re-submits the current
      price, when the rendering parses back to it. */
  lemma ConfirmUntouchedKeepsPrice(l: Listing, parse: string -> Option<real>, show: real -> string)
    requires parse(show(l.pricePerKg)) == Some(l.pricePerKg)
    ensures var shown := OnEdit(Closed, EditPrice(l), parse, show).dialog;
            OnEdit(shown, ConfirmUpdate, parse, show)
              == EditStep(Closed, Some(BuyerViewModel.PriceUpdate(l.id, l.pricePerKg)))
  {
  }

  /** Only a parseable confirmation produces a request. */
  lemma RequestOnlyFromParseableConfirm(d: EditDialog, e: EditEvent,
                                        parse: string -> Option<real>, show: real -> string)
    ensures OnEdit(d, e, parse, show).request.Some? <==>
              e == ConfirmUpdate && d.Editing? && parse(d.text).Some?
  {
  }
}

=== FILE: tts_manager.dfy ===
/** `TtsManager` front end: the language-to-locale choice and the one-slot
    buffer that holds a request made before the engine reports ready. The
    engine itself is a sink that records what it was asked to say. */
module TtsManager {
  import opened Common

  datatype Locale = KannadaIndia | US

  /** `TextToSpeech.QUEUE_ADD` / `QUEUE_FLUSH`. */
  datatype QueueMode = QueueAdd | QueueFlush

  /** A `(text, language)` pair as `speak` receives it. */
  datatype Request = Request(text: string, language: string)

  /** What the engine was asked to do. */
  datatype Event = Spoken(text: string, locale: Locale, mode: QueueMode) | Stopped

  /** `isInitialized`, `pendingSpeech`, and the engine's record. */
  datatype Tts = Tts(initialized: bool, pending: Option<Request>, events: seq<Event>)

  /** The manager as constructed, before the engine's init callback. */
  const Created: Tts := Tts(false, None, [])

  /** The locale `speak` asks for: kn-IN for "kn", "kn-IN" and "Kannada",
      US for every other tag. */
  function LocaleFor(language: string): (l: Locale)
    ensures l == KannadaIndia <==> language in ["kn", "kn-IN", "Kannada"]
  {
    if language == "kn" || language == "kn-IN" || language == "Kannada" then KannadaIndia else US
  }

  /** The locale the engine speaks in: the requested one when the engine
      reports it supported, US otherwise. */
  function EffectiveLocale(language: string, supported: Locale -> bool): (l: Locale)
    ensures l == KannadaIndia <==> LocaleFor(language) == KannadaIndia && supported(KannadaIndia)
  {
    var wanted := LocaleFor(language);
    if supported(wanted) then wanted else US
  }

  /** `speak(text, language, queueMode)`. Before init the request replaces
      whatever was pending and nothing is spoken; after init the text goes to
      the engine and the slot is not touched. */
  function SpeakWith(m: Tts, text: string, language: string, mode: QueueMode,
                     supported: Locale -> bool): (r: Tts)
    ensures r.initialized == m.initialized
    ensures !m.initialized ==> r.pending == Some(Request(text, language)) && r.events == m.events
    ensures m.initialized ==> r.pending == m.pending
    ensures m.initialized ==> |r.events| == |m.events| + 1 && r.events[..|m.events|] == m.events
    ensures m.initialized ==> r.events[|m.events|].Spoken? && r.events[|m.events|].text == text
                              && r.events[|m.events|].mode == mode
    ensures m.initialized ==> r.events == m.events + [Spoken(text, EffectiveLocale(language, supported), mode)]
  {
    if !m.initialized then m.(pending := Some(Request(text, language)))
    else
      var es := m.events + [Spoken(text, EffectiveLocale(language, supported), mode)];
      assert es[..|m.events|] == m.events;
      m.(events := es)
  }

  /** `speak` with its defaults: the queue mode is QUEUE_ADD. */
  function Speak(m: Tts, text: string, language: string, supported: Locale -> bool): (r: Tts)
    ensures !m.initialized ==> r == m.(pending := Some(Request(text, language)))
    ensures m.initialized ==> r == m.(events := m.events + [Spoken(text, EffectiveLocale(language, supported), QueueAdd)])
  {
    SpeakWith(m, text, language, QueueAdd, supported)
  }

  /** The init callback. On success the manager is ready and a pending request
      is spoken once and cleared; on failure nothing changes. */
  function OnInit(m: Tts, success: bool, supported: Locale -> bool): (r: Tts)
    ensures !success ==> r == m
    ensures success ==> r.initialized && r.pending.None?
    ensures success && m.pending.None? ==> r.events == m.events
    ensures success && m.pending.Some? && !m.initialized ==>
              r.events == m.events + [Spoken(m.pending.value.text,
                                             EffectiveLocale(m.pending.value.language, supported),
                                             QueueAdd)]
  {
    if !success then m
    else
      var ready := m.(initialized := true);
      match m.pending
      case None => ready
      case Some(req) => Speak(ready, req.text, req.language, supported).(pending := None)
  }

  /** `stop()`. */
  function Stop(m: Tts): (r: Tts)
    ensures r.initialized == m.initialized && r.pending == m.pending
    ensures r.events == m.events + [Stopped]
  {
    m.(events := m.events + [Stopped])
  }

  /** Several `speak` calls in a row, with the default queue mode. */
  function SpeakAll(m: Tts, reqs: seq<Request>, supported: Locale -> bool): Tts
    decreases |reqs|
  {
    if reqs == [] then m
    else SpeakAll(Speak(m, reqs[0].text, reqs[0].language, supported), reqs[1..], supported)
  }

  /** Before init only the latest request survives: the slot holds the last
      one and the engine has heard nothing. */
  lemma {:induction false} PendingKeepsLatest(m: Tts, reqs: seq<Request>, supported: Locale -> bool)
    requires !m.initialized && reqs != []
    ensures SpeakAll(m, reqs, supported) == m.(pending := Some(reqs[|reqs| - 1]))
    decreases |reqs|
  {
    var m1 := Speak(m, reqs[0].text, reqs[0].language, supported);
    if |reqs| > 1 {
      PendingKeepsLatest(m1, reqs[1..], supported);
    }
  }

  /** Requests made before a successful init produce exactly one utterance:
      the last of them. */
  lemma EarlyRequestsSpokenOnce(reqs: seq<Request>, supported: Locale -> bool)
    requires reqs != []
    ensures var last := reqs[|reqs| - 1];
            OnInit(SpeakAll(Created, reqs, supported), true, supported).events
              == [Spoken(last.text, EffectiveLocale(last.language, supported), QueueAdd)]
  {
    PendingKeepsLatest(Created, reqs, supported);
  }

  /** A failed init keeps queueing: a later request still only fills the slot. */
  lemma FailedInitKeepsBuffering(m: Tts, text: string, language: string, supported: Locale -> bool)
    requires !m.initialized
    ensures var r := Speak(OnInit(m, false, supported), text, language, supported);
            !r.initialized && r.pending == Some(Request(text, language)) && r.events == m.events
  {
  }
}

=== FILE: user_dao.dfy ===
/** The Room `users` table and the three queries the DAO declares on it.
    The table is a sequence of rows in rowid order; `id` is the primary key. */
module UserDao {
  import opened Common
  import opened Models

  type Table = seq<User>

  /** No two rows share a primary key. */
  predicate UniqueIds(t: Table)
  {
    forall i, j :: 0 <= i < |t| && 0 <= j < |t| && t[i].id == t[j].id ==> i == j
  }

  /** At most one row carries the logged-in flag. */
  predicate AtMostOneLoggedIn(t: Table)
  {
    forall i, j :: 0 <= i < |t| && 0 <= j < |t| && t[i].isLoggedIn && t[j].isLoggedIn ==> i == j
  }

  /** The session invariant every write keeps. */
  predicate Valid(t: Table)
  {
    UniqueIds(t) && AtMostOneLoggedIn(t)
  }

  predicate HasId(t: Table, id: string)
  {
    exists i :: 0 <= i < |t| && t[i].id == id
  }

  /** A row can be put in front of a keyed table exactly when its key is new. */
  lemma ConsUnique(x: User, s: Table)
    ensures UniqueIds([x] + s) <==> UniqueIds(s) && forall u :: u in s ==> u.id != x.id
  {
    var t := [x] + s;
    if UniqueIds(t) {
      forall i, j | 0 <= i < |s| && 0 <= j < |s| && s[i].id == s[j].id ensures i == j {
        assert t[i + 1].id == t[j + 1].id;
      }
      forall u | u in s ensures u.id != x.id {
        var k :| 0 <= k < |s| && s[k] == u;
        assert t[k + 1] == u && t[0] == x;
      }
    }
  }

  /** The rows whose key is not `id`, in their original order. */
  function WithoutId(t: Table, id: string): (r: Table)
    ensures forall u :: u in r <==> u in t && u.id != id
    ensures |r| <= |t|
  {
    if t == [] then []
    else if t[0].id == id then WithoutId(t[1..], id)
    else [t[0]] + WithoutId(t[1..], id)
  }

  lemma {:induction false} HasIdCons(t: Table, id: string)
    requires t != []
    ensures HasId(t, id) <==> t[0].id == id || HasId(t[1..], id)
  {
    if HasId(t, id) {
      var i :| 0 <= i < |t| && t[i].id == id;
      if i > 0 { assert t[1..][i - 1].id == id; }
    }
    if HasId(t[1..], id) {
      var i :| 0 <= i < |t| - 1 && t[1..][i].id == id;
      assert t[i + 1].id == id;
    }
  }

  /** Deleting a key that is absent changes nothing. */
  lemma {:induction false} WithoutAbsentId(t: Table, id: string)
    requires !HasId(t, id)
    ensures WithoutId(t, id) == t
  {
    if t != [] {
      HasIdCons(t, id);
      WithoutAbsentId(t[1..], id);
    }
  }

  /** In a keyed table, deleting by key removes exactly the one matching row. */
  lemma {:induction false} WithoutIdKeyed(t: Table, id: string)
    requires UniqueIds(t)
    ensures UniqueIds(WithoutId(t, id))
    ensures |WithoutId(t, id)| == if HasId(t, id) then |t| - 1 else |t|
  {
    if t != [] {
      ConsUnique(t[0], t[1..]);
      assert [t[0]] + t[1..] == t;
      HasIdCons(t, id);
      WithoutIdKeyed(t[1..], id);
      if t[0].id == id {
        assert !HasId(t[1..], id);
      } else {
        ConsUnique(t[0], WithoutId(t[1..], id));
      }
    }
  }

  lemma WithoutIdFacts(t: Table, id: string)
    ensures !HasId(t, id) ==> WithoutId(t, id) == t
    ensures UniqueIds(t) ==> UniqueIds(WithoutId(t, id))
    ensures UniqueIds(t) ==> |WithoutId(t, id)| == if HasId(t, id) then |t| - 1 else |t|
  {
    if !HasId(t, id) { WithoutAbsentId(t, id); }
    if UniqueIds(t) { WithoutIdKeyed(t, id); }
  }

  /** `@Insert(onConflict = REPLACE) insertUser(user)`: a row with the same key
      is deleted, and `user` is added as the newest row. */
  function InsertUser(t: Table, user: User): (r: Table)
    ensures |r| > 0 && r[|r| - 1] == user
    ensures forall u :: u in r <==> u == user || (u in t && u.id != user.id)
    ensures !HasId(t, user.id) ==> r == t + [user]
    ensures UniqueIds(t) ==> UniqueIds(r)
    ensures UniqueIds(t) ==> |r| == if HasId(t, user.id) then |t| else |t| + 1
  {
    WithoutIdFacts(t, user.id);
    WithoutId(t, user.id) + [user]
  }

  /** `UPDATE users SET isLoggedIn = 0`: every row kept in place, flag cleared. */
  function LogoutAll(t: Table): (r: Table)
    ensures |r| == |t|
    ensures forall i :: 0 <= i < |t| ==> r[i] == t[i].(isLoggedIn := false)
  {
    if t == [] then [] else [t[0].(isLoggedIn := false)] + LogoutAll(t[1..])
  }

  /** `logoutAll` leaves no row flagged, keeps the keys, and therefore keeps
      the table valid. */
  lemma LogoutAllClears(t: Table)
    ensures forall u :: u in LogoutAll(t) ==> !u.isLoggedIn
    ensures forall i :: 0 <= i < |t| ==> LogoutAll(t)[i].id == t[i].id
    ensures UniqueIds(t) ==> Valid(LogoutAll(t))
  {
  }

  /** Running `logoutAll` twice is the same as running it once. */
  lemma LogoutAllIdempotent(t: Table)
    ensures LogoutAll(LogoutAll(t)) == LogoutAll(t)
  {
  }

  /** `SELECT * FROM users WHERE isLoggedIn = 1 LIMIT 1`: the first flagged
      row in table order, or null. */
  function LoggedInUser(t: Table): (r: Option<User>)
    ensures r.None? <==> forall i :: 0 <= i < |t| ==> !t[i].isLoggedIn
    ensures r.Some? ==> exists i :: 0 <= i < |t| && t[i] == r.value && r.value.isLoggedIn
                                    && forall j :: 0 <= j < i ==> !t[j].isLoggedIn
  {
    if t == [] then None
    else if t[0].isLoggedIn then Some(t[0])
    else
      var r := LoggedInUser(t[1..]);
      assert r.Some? ==> exists i :: 0 <= i < |t| && t[i] == r.value && r.value.isLoggedIn
                                     && forall j :: 0 <= j < i ==> !t[j].isLoggedIn by {
        if r.Some? {
          var k :| 0 <= k < |t| - 1 && t[1..][k] == r.value && r.value.isLoggedIn
                   && forall j :: 0 <= j < k ==> !t[1..][j].isLoggedIn;
          assert t[k + 1] == r.value;
          forall j | 0 <= j < k + 1 ensures !t[j].isLoggedIn {
            if j > 0 { assert t[j] == t[1..][j - 1]; }
          }
        }
      }
      r
  }

  /** Under the session invariant the query is exact: it returns a row if and
      only if that row is in the table and flagged. */
  lemma LoggedInUserExact(t: Table, u: User)
    requires AtMostOneLoggedIn(t)
    ensures LoggedInUser(t) == Some(u) <==> u in t && u.isLoggedIn
  {
    if u in t && u.isLoggedIn {
      var k :| 0 <= k < |t| && t[k] == u;
      var r := LoggedInUser(t);
      var i :| 0 <= i < |t| && t[i] == r.value && r.value.isLoggedIn;
      assert i == k;
    }
  }
}

=== FILE: user_preferences.dfy ===
/** `UserPreferences`: the DataStore of string preferences, the two keys the
    app uses, their defaults, and the role stored by name. */
module UserPreferences {
  import opened Common
  import opened Models

  /** A DataStore `Preferences` snapshot: string keys to string values. */
  type Store = map<string, string>

  const LanguageKey: string := "language"
  const RoleKey: string := "role"

  /** The language read when none was saved. */
  const DefaultLanguage: string := "English"

  /** `language`: the saved value, or "English" when unset. */
  function Language(p: Store): (lang: string)
    ensures LanguageKey in p ==> lang == p[LanguageKey]
    ensures LanguageKey !in p ==> lang == DefaultLanguage
  {
    if LanguageKey in p then p[LanguageKey] else DefaultLanguage
  }

  /** `role`: `UserRole.valueOf` of the saved name, NONE's name when unset.
      `None` is the exception `valueOf` throws for a name that is not a role. */
  function Role(p: Store): (r: Option<UserRole>)
    ensures RoleKey !in p ==> r == Some(NoRole)
    ensures RoleKey in p ==> (r.Some? <==> exists role :: RoleName(role) == p[RoleKey])
    ensures RoleKey in p && r.Some? ==> RoleName(r.value) == p[RoleKey]
  {
    var name := if RoleKey in p then p[RoleKey] else RoleName(NoRole);
    var r := ParseRole(name);
    assert r.Some? ==> RoleName(r.value) == name;
    r
  }

  function SaveLanguage(p: Store, language: string): (q: Store)
    ensures q.Keys == p.Keys + {LanguageKey}
    ensures forall k :: k in p && k != LanguageKey ==> q[k] == p[k]
  {
    p[LanguageKey := language]
  }

  /** `saveRole`: stores the role's `name`. */
  function SaveRole(p: Store, role: UserRole): (q: Store)
    ensures q.Keys == p.Keys + {RoleKey}
    ensures forall k :: k in p && k != RoleKey ==> q[k] == p[k]
  {
    p[RoleKey := RoleName(role)]
  }

  /** A saved role reads back as itself, and the language is untouched. */
  lemma SaveRoleReadBack(p: Store, role: UserRole)
    ensures Role(SaveRole(p, role)) == Some(role)
    ensures Language(SaveRole(p, role)) == Language(p)
  {
    RoleNameRoundTrip(role);
  }

  /** A saved language reads back as itself, and the role is untouched. */
  lemma SaveLanguageReadBack(p: Store, language: string)
    ensures Language(SaveLanguage(p, language)) == language
    ensures Role(SaveLanguage(p, language)) == Role(p)
  {
  }

  /** An empty store reads as "English" and NONE. */
  lemma Defaults()
    ensures Language(map[]) == "English"
    ensures Role(map[]) == Some(NoRole)
  {
  }

  /** A stored role string that is no constant's name makes the read fail. */
  lemma UnknownRoleNameFails(p: Store)
    requires RoleKey in p
    requires p[RoleKey] !in ["FARMER", "BUYER", "DRIVER", "TRADER", "NONE"]
    ensures Role(p).None?
  {
  }
}
